=== FILE: README.md ===
# simple-fuzzy-filter in Dafny

A model of the matching core of simple-fuzzy-filter. The library filters a
collection of items by a free-text query. An item is kept when its text
(for the multi-field engine, one of its fields on its own) matches the whole
query: the query tokens must be pairwise distinct, and each must win some
token of that text (`Matching.CompleteIff`), where a token is won by the first query token, in
query order, that is a case-insensitive prefix of it. Each kept item comes
with highlight spans that mark what matched. It also carries a
same-order flag, which drives the ranking.

Modules, one per concern of the source:

- `Common`: the optional value, ASCII upper-casing, and generic helpers over
  sequences: the fold `Somes`, the comprehension `Map`, and `Distinct`,
  `ElemSet` and `Any`.
- `Tokenizer`: the tokenizer. It makes one left-to-right scan that cuts a
  string into token spans and one-character separator spans. A new token starts
  at every lower-to-upper case boundary.
- `ItemsIndex`: the lazy items index. It is a pending list of raw items until
  the first `indexedItems` access, and a list of tokenized entries afterwards.
  It supports `add`, `addAll`, `remove`, `removeAll` and `initIndex`. The
  index receives the tokenizer's `tokenize` method as a function value; the
  single-field engine passes `Tokenizer.TokenizeWith(cfg)`.
- `Matching`: the per-text matching algorithm both engines share. It covers:
  - the query tokens;
  - the first-prefix-match rule;
  - the highlight spans;
  - the set of matched query tokens;
  - the same-order latch.

  This module also holds the theorems about what a completed text means.
- `MultiFieldFilter`: the multi-field engine. Each field of an item is matched
  on its own. The highlight takes the shape of the item's text. Results are
  ranked by the same-order-first or same-order-strict policy.
- `SingleFieldFilter`: the single-field engine, which works over the lazy
  index.
- `Scenarios`: concrete inputs, most from the library's tests.

Loops in the source (`forEach` left to right) are modelled as prefix-recursive
folds: the state after `s[..n]` is one step applied to the state after
`s[..n-1]`. `doFilter` in both engines is a method whose loop invariant ties it
to that fold.

In these places the model follows the code where a reader might expect otherwise:

- A multi-field item matches only when one field on its own holds every query
  token. No union is taken across fields (`MultiFieldFilter.NoUnionAcrossFields`).
- A token that a query token covers entirely still gets an empty unmatched span
  after its matched span (`Matching.FullTokenMatchKeepsEmptyRemainder`).
- The constructor turns case splitting on whatever the caller passes (see
  Findings).
- The pending-mode `remove` tests the `indexOf` result for truthiness (see
  Findings).

## Model

| member | source | states |
|---|---|---|
| Tokenizer.NewTokenizer | src/simple-fuzzy-filter-tokenizer.ts:11-14 | a missing separator list means the default six separators; case splitting is on whatever flag is passed |
| Tokenizer.NewTokenizerIntended | src/simple-fuzzy-filter-tokenizer.ts:11-14 | corrected constructor: case splitting is off exactly when `false` is passed explicitly |
| Tokenizer.Tokenize | src/simple-fuzzy-filter-tokenizer.ts:16-59 | the spans give back the input exactly; none is empty; empty text gives no spans; each separator span is one separator character; no token holds a separator; with case splitting, no token holds a lower-to-upper transition and two adjacent tokens always meet at one |
| Tokenizer.ScanRebuilds | src/simple-fuzzy-filter-tokenizer.ts:36-55 | loop invariant: the emitted spans followed by the pending token are exactly the characters consumed |
| Tokenizer.ScanShape | src/simple-fuzzy-filter-tokenizer.ts:36-55 | loop invariant: emitted spans are non-empty, separators are single separator characters, and no token (emitted or pending) holds a separator |
| Tokenizer.ScanCase | src/simple-fuzzy-filter-tokenizer.ts:43-54 | loop invariant with case splitting: tokens are a run of case starts then ordinary characters, `prevTokenByCase` says whether the pending token ends in a case start, and adjacent tokens meet at a case boundary |
| Tokenizer.TokenizeWithoutCaseSplit | src/simple-fuzzy-filter-tokenizer.ts:36-57 | with case splitting off, no two token spans are adjacent, so each token is a maximal run between separators |
| Tokenizer.CaseRunIsOneToken | src/simple-fuzzy-filter-tokenizer.ts:43-54 | a non-empty run of case starts (upper-case letters, digits) with no separator is one token, so "HELLO" is never cut |
| ItemsIndex.Items | src/simple-fuzzy-filter-items-index.ts:24-30 | while pending, the items are the pending list; once indexed, they are the entries' items, position by position |
| ItemsIndex.Add | src/simple-fuzzy-filter-items-index.ts:40-49 | the state is kept; the item is appended to the items; once indexed, its freshly tokenized entry is appended and no other entry changes |
| ItemsIndex.AddAll | src/simple-fuzzy-filter-items-index.ts:51-53 | the items are appended in order; once indexed, their entries are appended in order after the old ones |
| ItemsIndex.IndexOf | src/simple-fuzzy-filter-items-index.ts:63 | the first position holding the item, or -1 exactly when it is absent |
| ItemsIndex.FindEntry | src/simple-fuzzy-filter-items-index.ts:57-60 | the position of the first entry holding the item, or -1 when no entry holds it |
| ItemsIndex.FindEntryIsIndexOf | src/simple-fuzzy-filter-items-index.ts:57-60 | `find` then `indexOf` of the found entry is `indexOf` over the item values |
| ItemsIndex.Remove | src/simple-fuzzy-filter-items-index.ts:55-69 | as written: once indexed, the first entry holding the item is dropped, or nothing when none does; while pending, an item at position 0 stays, an absent item drops the last pending item, and any other position is dropped |
| ItemsIndex.RemoveShrinks | src/simple-fuzzy-filter-items-index.ts:55-69 | `remove` never adds an item and removes at most one, in either state |
| ItemsIndex.RemoveAll | src/simple-fuzzy-filter-items-index.ts:71-73 | the state is kept; the items are a sub-multiset of the old ones, at most one fewer per removed item; once indexed, the remaining items are exactly the old multiset minus the removed multiset |
| ItemsIndex.InitIndex | src/simple-fuzzy-filter-items-index.ts:75-81 | every pending item, in order, becomes an entry holding the tokens of its text |
| ItemsIndex.InitIndexIsAddAll | src/simple-fuzzy-filter-items-index.ts:75-81 | `initIndex` equals adding every pending item to an empty indexed list |
| ItemsIndex.CallInitIndex | src/simple-fuzzy-filter-items-index.ts:75-81 | a direct `initIndex()` call leaves the index indexed; while pending it equals the first `indexedItems` access; on an already indexed index it leaves no items, because the pending list it re-adds is empty |
| ItemsIndex.ReindexLosesItems | src/simple-fuzzy-filter-items-index.ts:75-81 | on an indexed index with entries, `indexedItems` keeps every item while a direct `initIndex()` call loses them all |
| ItemsIndex.IndexedItems | src/simple-fuzzy-filter-items-index.ts:32-38 | the first access indexes the pending items in order and leaves the index indexed; later accesses return the same entries; the items never change |
| ItemsIndex.IndexedItemsIdempotent | src/simple-fuzzy-filter-items-index.ts:32-38 | a second access changes nothing and returns the same entries |
| ItemsIndex.OperationsKeepWellIndexed | src/simple-fuzzy-filter-items-index.ts:32-69 | `add`, `remove` and the first `indexedItems` access keep every entry holding the tokens of its own item's text |
| ItemsIndex.FoldsKeepWellIndexed | src/simple-fuzzy-filter-items-index.ts:51-73 | `addAll` and `removeAll` keep every entry holding the tokens of its own item's text |
| ItemsIndex.AddAllCommutesWithIndexing | src/simple-fuzzy-filter-items-index.ts:40-53 | adding then indexing gives the same index as indexing then adding, so laziness is invisible through `add` |
| ItemsIndex.RemovePendingIntended | src/simple-fuzzy-filter-items-index.ts:62-68 | corrected pending-mode `remove`: an absent item changes nothing; a present one loses exactly one occurrence |
| ItemsIndex.RemoveIntendedCommutesWithIndexing | src/simple-fuzzy-filter-items-index.ts:55-68 | with the corrected pending-mode `remove`, removing then indexing equals indexing then removing |
| ItemsIndex.PendingRemoveKeepsFirstItem | src/simple-fuzzy-filter-items-index.ts:63-66 | as written, removing the first pending item keeps it, while the indexed `remove` drops it |
| ItemsIndex.PendingRemoveOfAbsentDropsLast | src/simple-fuzzy-filter-items-index.ts:63-66 | as written, removing an absent item while pending drops the last item, while the indexed `remove` changes nothing |
| Matching.QueryTokens | src/simple-fuzzy-filter.ts:95-106 | each query token is non-empty and upper case, and together they spell the upper-cased query with its separators removed |
| Matching.SeparatorQueryHasNoTokens | src/simple-fuzzy-filter.ts:95-106 | a query that is empty or made only of separators yields no query tokens |
| Matching.FirstMatch | src/simple-fuzzy-filter.ts:150-159 | the first query token in list order that prefixes the upper-cased token text, and no earlier one does; none when no query token does |
| Matching.ScanText | src/simple-fuzzy-filter.ts:145-205 | the highlight spans spell the text exactly; every matched span starts where a token of the text starts, the unmatched span after it is the rest of that token, and upper-cased it is the query token that wins that token; every token some query token wins has such a span; the matched spans upper-cased are exactly the winning query tokens in text order; only query tokens are recorded as matched |
| Matching.FieldScanHighlightsWinners | src/simple-fuzzy-filter.ts:150-198 | loop invariant: the matched spans emitted so far, upper-cased, are the winning query tokens of the tokens consumed, in order |
| Matching.FieldScanSound | src/simple-fuzzy-filter.ts:150-198 | loop invariant: each matched span emitted so far sits at the start of a consumed token and is its winning query token's prefix, and every consumed token a query token wins has its matched span |
| Matching.FieldScanTracksWinners | src/simple-fuzzy-filter.ts:145-198 | the matched set, last matched token and same-order flag are those of the sequence of winning query tokens in text order |
| Matching.CompleteIff | src/simple-fuzzy-filter.ts:207 | a text completes exactly when the query tokens are pairwise distinct and each wins some token of the text |
| Matching.RepeatedQueryTokenNeverCompletes | src/simple-fuzzy-filter.ts:207 | a query with a repeated token never completes, because the matched set has fewer elements than the query |
| Matching.CompleteMeansPrefixes | src/simple-fuzzy-filter.ts:152-160 | in a completed text every query token prefixes some upper-cased token of the text |
| Matching.SameOrderIff | src/simple-fuzzy-filter.ts:155-157 | with non-empty query tokens, a completed text keeps its same-order flag exactly when its winners in text order are the query tokens in query order |
| Matching.SameOrderLatches | src/simple-fuzzy-filter.ts:155-157 | once the same-order flag drops, it stays down for the rest of the text |
| Matching.EmptyQueryMatchesEverything | src/simple-fuzzy-filter.ts:207-212 | with no query tokens every text completes, in order, with no span highlighted, and the spans spell the text |
| Matching.FirstMatchShadowsLaterTokens | src/simple-fuzzy-filter.ts:150-153 | only the first matching query token is tried: for ["HE","HEL"] against "hello", "HEL" is a prefix yet never matched, so the text does not complete |
| Matching.FullTokenMatchKeepsEmptyRemainder | src/simple-fuzzy-filter.ts:169-177 | a token covered entirely by its query token is followed by an empty unmatched span |
| MultiFieldFilter.FilterField | src/simple-fuzzy-filter.ts:138-220 | a field matches exactly when the query tokens are distinct and each wins some token of the field; an unmatched field gives its whole text as one unmatched span and is not in order; the spans spell the field |
| MultiFieldFilter.MatchedFieldMeaning | src/simple-fuzzy-filter.ts:155-212 | a matched field's matched spans each sit at the start of the field token a query token wins and are that token's prefix, and every won token has one; upper-cased they are its winning query tokens in text order, so every query token is highlighted; with non-empty query tokens it is in order exactly when its winners are the query tokens in order |
| MultiFieldFilter.FilterFields | src/simple-fuzzy-filter.ts:113-125 | some field matched exactly when one field on its own matches; in order exactly when some matched field kept the query order; entry i is field i's key with the highlight that field gets on its own, which spells its text |
| MultiFieldFilter.GetHighlightResult | src/simple-fuzzy-filter.ts:222-238 | the result is flat exactly for a single text and per-position exactly for a list; it holds one span list for a single text and one per key otherwise, and its i-th span list is the i-th per-key span list, under the same key when keyed; so whatever fields the per-key spans spell, the result spells them in the shape of the text |
| MultiFieldFilter.KeyedEntryIsFieldHighlight | src/simple-fuzzy-filter.ts:230-236 | when the field keys are distinct, the entry a keyed highlight holds under a field's key is that field's own highlight, and no other entry carries that key |
| MultiFieldFilter.DoFilterItem | src/simple-fuzzy-filter.ts:108-136 | an item is returned exactly when some single field matches; the item is passed through; it is in order exactly when some matched field kept the query order |
| MultiFieldFilter.MatchedItemSpellsText | src/simple-fuzzy-filter.ts:124-131 | a returned item's highlight spells its text, field by field, in the shape of that text |
| MultiFieldFilter.MatchedItemMeaning | src/simple-fuzzy-filter.ts:108-136 | a returned item's highlight holds one span list per field (the first only, for a single text), in field order and under the field keys; in a field that matched on its own, each matched span sits at the start of the token it belongs to and is its winning query token's prefix, every won token has one, and upper-cased they are its winning query tokens in text order; any other field is its whole text as one unmatched span |
| MultiFieldFilter.NoUnionAcrossFields | src/simple-fuzzy-filter.ts:113-134 | "HEL" prefixes the field "hello" and "AGAIN" prefixes the field "again", yet the item with both fields is dropped |
| MultiFieldFilter.WithOrder | src/simple-fuzzy-filter.ts:76-85 | every kept match has the requested same-order flag |
| MultiFieldFilter.DoFilter | src/simple-fuzzy-filter.ts:66-93 | the loop with its two lists yields the matches in item order, ranked: strict keeps only in-order ones; same-order-first puts in-order ones first, then the rest; otherwise all, as they come |
| MultiFieldFilter.SameOrderFirstIsPartition | src/simple-fuzzy-filter.ts:76-90 | same-order-first reorders the matches and loses none |
| MultiFieldFilter.StrictKeepsExactlyInOrder | src/simple-fuzzy-filter.ts:76-79 | a strict result holds exactly the in-order matches |
| MultiFieldFilter.MatchesAreDoFilterItem | src/simple-fuzzy-filter.ts:72-75 | an item is among the matches exactly when `doFilterItem` returns it |
| SingleFieldFilter.DoFilterItem | src/simple-fuzzy-filter-js.ts:90-168 | an item is returned exactly when the query tokens are distinct and each wins some token of its text; the item is passed through and the highlight spells its text |
| SingleFieldFilter.MatchedItemMeaning | src/simple-fuzzy-filter-js.ts:97-164 | in a returned item, each matched span sits at the start of a token of its text and is the prefix its winning query token matched, and every won token has one; upper-cased they are its winning query tokens in text order, so every query token is highlighted; with non-empty query tokens it is in order exactly when its winners are the query tokens in order |
| SingleFieldFilter.DoFilter | src/simple-fuzzy-filter-js.ts:61-75 | the index is forced as by `indexedItems`, and the answer is the matched entries in index order, with no ranking |
| SingleFieldFilter.ResultsAreDoFilterItem | src/simple-fuzzy-filter-js.ts:66-72 | an item is among the results exactly when `doFilterItem` returns it for some entry |
| SingleFieldFilter.ResultsSpellItemText | src/simple-fuzzy-filter-js.ts:64-72 | on a well-indexed index every result's highlight spells the text the text provider gives for its item |
| SingleFieldFilter.EmptyQueryKeepsEveryItem | src/simple-fuzzy-filter-js.ts:159-164 | a query without tokens keeps every item, in index order, in order, with nothing highlighted |
| Scenarios.HelloWorldText | src/simple-fuzzy-filter-tokenizer.ts:16-59 | the default tokenizer cuts "hello world" into the token "hello", the separator " " and the token "world" |
| Scenarios.TwoWordQuery | src/simple-fuzzy-filter.ts:95-106 | a query of two lower-case words joined by a space has their upper-cased forms, in order, as its query tokens |
| Scenarios.HelloWorldInOrder | test/simple-fuzzy-filter-js.test.ts:189-191 | the default tokenizer turns "hello world" into those three spans and "hel wor" into ["HEL", "WOR"], and that query completes in order with highlight [hel]lo [wor]ld |
| Scenarios.HelloWorldOutOfOrder | test/simple-fuzzy-filter-js.test.ts:234-238 | the default tokenizer turns "wor hel" into ["WOR", "HEL"], and that query against "hello world" completes but is not in order |
| Scenarios.MisplacedMatchIsUnsound | src/simple-fuzzy-filter.ts:162-177 | a highlight that marks "hel" inside "ahello", which no query token wins, is not sound, although it spells the text and "HEL" wins the later "hello" |
| Scenarios.DigitStartsNewToken | src/simple-fuzzy-filter-tokenizer.ts:43 | a digit is its own upper-case form, so in "a1" it starts a second token |
| Scenarios.CamelCaseSplitsEvenWhenAskedNotTo | src/simple-fuzzy-filter-tokenizer.ts:13 | with `false` passed for case splitting, "helloWorld" still splits into "hello" and "World", two adjacent tokens |

## Left out

- The `core-js` polyfill imports and the result-types file: they hold no logic.
- Unicode `toUpperCase`: upper-casing is ASCII-only and never changes length. Full Unicode case mapping (for example "ß" to "SS") would change lengths and the `substr` offsets. So the model departs from the code on non-ASCII letters. A lower-case "é" counts as a case start, so with case splitting "café" becomes "caf" and "é" where the code keeps one token. A query "é" stays "é" and never matches a text "É".
- JavaScript strings are UTF-16 code units. The model works on Dafny `char`s.
- The constructors of the two filter classes and of the items index, and the `initIndexOn: "construct"` option, are left out. Eager indexing is one `indexedItems` access (`ItemsIndex.IndexedItems`).
- The text provider is a function parameter. Item equality is Dafny equality on `T`. The indexed `remove` finds the entry with loose `==`, while the pending `remove` uses `indexOf`, which compares with strict `===`. Both become the same Dafny `==`, so cases where they differ (`1` against `"1"`) are not modelled.
- ItemsIndex.RemoveAll: states the remaining multiset of items once indexed, but not that the remaining items keep their relative order.
- The index the multi-field engine reads is not part of this model. That version has `textTokenized` keyed by field and `textType`, while the index modelled here has a single `text`. The multi-field engine therefore takes indexed items as input: fields in key order, plus the shape of the text.
- JavaScript's ordering of integer-like object keys is not modelled. Fields are visited in the order given.
- The single-field engine's `sameOrderFirst` option is declared and never read, so it is not modelled.
- A separator entry longer than one character never equals a single letter, so it never splits. The model keeps that, without a separate lemma.
- MultiFieldFilter.GetHighlightResult: requires at least one field for a single text, which every single text has. The code would return `undefined` otherwise.
- Matching.QueryTokens: does not state that query tokens are free of separators. Upper-casing can turn a non-separator into a separator when the separator list holds an upper-case letter.
- Missing filter options read as `false` (`FilterOptions`), as `?.` on an absent `filter` does.

## Findings

| source | as written | input that shows it | evidently intended | confidence | as-written member | corrected member |
|---|---|---|---|---|---|---|
| src/simple-fuzzy-filter-items-index.ts:63-67 | `if (index)` treats position 0 as absent and -1 as present | pending items [a, b]: `remove(a)` keeps a; `remove(c)` drops b | `if (index != -1)`, the same as the indexed branch | high; not executed | ItemsIndex.Remove (with ItemsIndex.PendingRemoveKeepsFirstItem, ItemsIndex.PendingRemoveOfAbsentDropsLast) | ItemsIndex.RemovePendingIntended (with ItemsIndex.RemoveIntendedCommutesWithIndexing) |
| src/simple-fuzzy-filter-tokenizer.ts:13 | the flag or-ed with `true` is always true, so `false` cannot turn case splitting off | tokenizer built with `false`, text "helloWorld": tokens "hello" and "World" | `isSplitByCase ?? true`: default on, explicit `false` off | high; not executed | Tokenizer.NewTokenizer (with Scenarios.CamelCaseSplitsEvenWhenAskedNotTo) | Tokenizer.NewTokenizerIntended (with Tokenizer.TokenizeWithoutCaseSplit) |

=== FILE: common.dfy ===
/** Shared vocabulary: an optional value, the per-character upper-casing the
    library relies on, and facts about sequences without repeated elements. */
module Common {

  /** A value that may be missing (JavaScript's `undefined` or `null`). */
  datatype Option<+T> = None | Some(value: T) {
    function GetOr(default: T): T {
      match this
      case Some(v) => v
      case None => default
    }
  }

  /** Upper-casing of one character. Only the ASCII letters have a case here;
      every other character is its own upper-case form. */
  function UpperChar(c: char): char {
    if 'a' <= c <= 'z' then (c as int - 32) as char else c
  }

  /** Upper-casing of a string, one character at a time, so the length never changes. */
  function Upper(s: string): (r: string)
    ensures |r| == |s|
    ensures forall i :: 0 <= i < |s| ==> r[i] == UpperChar(s[i])
  {
    seq(|s|, i requires 0 <= i < |s| => UpperChar(s[i]))
  }

  /** `c.toUpperCase() == c` with ASCII-only upper-casing: true of upper-case
      letters, of every caseless character (digits, punctuation) and, since
      only `a`..`z` change, of every non-ASCII letter too, lower-case ones
      such as `é` included. */
  predicate IsCaseStart(c: char) {
    UpperChar(c) == c
  }

  lemma UpperConcat(a: string, b: string)
    ensures Upper(a + b) == Upper(a) + Upper(b)
  {
    assert forall i :: 0 <= i < |a + b| ==> Upper(a + b)[i] == (Upper(a) + Upper(b))[i];
  }

  /** Upper-casing is idempotent. */
  lemma UpperIdempotent(s: string)
    ensures Upper(Upper(s)) == Upper(s)
  {
  }

  function ElemSet<X>(s: seq<X>): set<X> {
    set x | x in s
  }

  predicate Distinct<X(==)>(s: seq<X>) {
    forall i, j :: 0 <= i < j < |s| ==> s[i] != s[j]
  }

  /** A sequence has at most as many distinct values as elements, and exactly
      as many iff no value is repeated. */
  lemma {:induction false} DistinctCard<X>(s: seq<X>)
    ensures |ElemSet(s)| <= |s|
    ensures Distinct(s) <==> |ElemSet(s)| == |s|
  {
    if |s| > 0 {
      var p := s[..|s| - 1];
      var x := s[|s| - 1];
      DistinctCard(p);
      assert s == p + [x];
      assert ElemSet(s) == ElemSet(p) + {x};
      if x in p {
        assert ElemSet(s) == ElemSet(p);
        var j :| 0 <= j < |p| && p[j] == x;
        assert s[j] == s[|s| - 1];
        assert !Distinct(s);
      } else {
        assert x !in ElemSet(p);
        assert |ElemSet(s)| == |ElemSet(p)| + 1;
        if Distinct(p) {
          assert Distinct(s);
        } else {
          var i, j :| 0 <= i < j < |p| && p[i] == p[j];
          assert s[i] == s[j];
        }
      }
    }
  }

  /** A subset with as many elements as its superset is the superset. */
  lemma SubsetSameCard<X>(a: set<X>, b: set<X>)
    requires a <= b
    requires |a| >= |b|
    ensures a == b
  {
    assert |b - a| == |b| - |a|;
  }

  /** The present values of a sequence of optional values, in order. */
  function Somes<X>(s: seq<Option<X>>): (r: seq<X>)
    ensures |r| <= |s|
    decreases |s|
  {
    if |s| == 0 then []
    else
      var r := Somes(s[..|s| - 1]);
      match s[|s| - 1]
      case None => r
      case Some(x) => r + [x]
  }

  /** A value is kept exactly when it is present somewhere in the input. */
  lemma {:induction false} SomesMembership<X>(s: seq<Option<X>>, x: X)
    ensures x in Somes(s) <==> Some(x) in s
    decreases |s|
  {
    if |s| > 0 {
      var p := s[..|s| - 1];
      SomesMembership(p, x);
      assert s == p + [s[|s| - 1]];
    }
  }

  /** When every value is present, nothing is dropped and nothing moves. */
  lemma {:induction false} SomesAllPresent<X>(s: seq<Option<X>>)
    requires forall i :: 0 <= i < |s| ==> s[i].Some?
    ensures |Somes(s)| == |s|
    ensures forall i :: 0 <= i < |s| ==> Somes(s)[i] == s[i].value
    decreases |s|
  {
    if |s| > 0 {
      SomesAllPresent(s[..|s| - 1]);
    }
  }

  /** Taking the present values commutes with extending the input. */
  lemma SomesAppend<X>(s: seq<Option<X>>, o: Option<X>)
    ensures Somes(s + [o]) == Somes(s) + (if o.Some? then [o.value] else [])
  {
    assert (s + [o])[..|s|] == s;
  }

  /** `f` applied to every element, in order. */
  function Map<X, Y>(f: X -> Y, s: seq<X>): (r: seq<Y>)
    ensures |r| == |s|
    ensures forall i :: 0 <= i < |s| ==> r[i] == f(s[i])
  {
    seq(|s|, i requires 0 <= i < |s| => f(s[i]))
  }

  lemma MapSnoc<X, Y>(f: X -> Y, s: seq<X>, n: int)
    requires 0 <= n < |s|
    ensures Map(f, s[..n + 1]) == Map(f, s[..n]) + [f(s[n])]
  {
  }

  /** Some element of `s` satisfies `P`. */
  predicate Any<X>(P: X -> bool, s: seq<X>) {
    exists i :: 0 <= i < |s| && P(s[i])
  }

  lemma AnySnoc<X>(P: X -> bool, s: seq<X>)
    requires |s| > 0
    ensures Any(P, s) <==> Any(P, s[..|s| - 1]) || P(s[|s| - 1])
  {
    var p := s[..|s| - 1];
    if Any(P, s) {
      var i :| 0 <= i < |s| && P(s[i]);
      if i < |p| {
        assert p[i] == s[i];
      }
    }
    if Any(P, p) {
      var i :| 0 <= i < |p| && P(p[i]);
      assert s[i] == p[i];
    }
  }
}

=== FILE: items_index.dfy ===
/** The lazily built items index: a pending list of raw items until the first
    `indexedItems` access, then a list of items paired with the tokens of
    their text. `add` and `remove` work in either state. */
module ItemsIndex {
  import opened Common
  import opened Tokenizer

  /** An indexed item: the item and the tokens of its text. */
  datatype ItemData<T> = ItemData(item: T, text: seq<Token>)

  /** The two states of the index: before the first `indexedItems` access
      only the raw items are kept; afterwards only the indexed entries. */
  datatype Index<T> = Pending(itemsCached: seq<T>) | Indexed(entries: seq<ItemData<T>>)

  /** The item values of a list of entries, in order. */
  function ItemValues<T>(entries: seq<ItemData<T>>): (r: seq<T>)
    ensures |r| == |entries|
    ensures forall i :: 0 <= i < |entries| ==> r[i] == entries[i].item
  {
    seq(|entries|, i requires 0 <= i < |entries| => entries[i].item)
  }

  /** The `items` getter: the items held, whichever the state: the pending
      list as it is, or each entry's item in entry order. */
  function Items<T>(idx: Index<T>): (r: seq<T>)
    ensures idx.Pending? ==> r == idx.itemsCached
    ensures idx.Indexed? ==> |r| == |idx.entries| && forall i :: 0 <= i < |r| ==> r[i] == idx.entries[i].item
  {
    match idx
    case Pending(cached) => cached
    case Indexed(entries) => ItemValues(entries)
  }

  /** The entry the index builds for one item: its text, through the text
      provider, tokenized. */
  function Entry<T>(tokenize: string -> seq<Token>, textProvider: T -> string, item: T): ItemData<T> {
    ItemData(item, tokenize(textProvider(item)))
  }

  /** Appends one item: raw while pending, as a freshly tokenized entry once
      indexed. The state does not change and nothing else moves. */
  function Add<T>(idx: Index<T>, tokenize: string -> seq<Token>, textProvider: T -> string, item: T): (r: Index<T>)
    ensures r.Indexed? == idx.Indexed?
    ensures Items(r) == Items(idx) + [item]
    ensures r.Indexed? ==> r.entries == idx.entries + [Entry(tokenize, textProvider, item)]
  {
    match idx
    case Indexed(entries) => Indexed(entries + [Entry(tokenize, textProvider, item)])
    case Pending(cached) => Pending(cached + [item])
  }

  /** `add` of every item, in order. Once indexed, the new entries are the
      items' entries, appended in order after the old ones. */
  function AddAll<T>(idx: Index<T>, tokenize: string -> seq<Token>, textProvider: T -> string, items: seq<T>): (r: Index<T>)
    ensures r.Indexed? == idx.Indexed?
    ensures Items(r) == Items(idx) + items
    ensures r.Indexed? ==> r.entries == idx.entries + Entries(tokenize, textProvider, items)
    decreases |items|
  {
    if |items| == 0 then idx
    else
      var prefix := items[..|items| - 1];
      var x := items[|items| - 1];
      var prev := AddAll(idx, tokenize, textProvider, prefix);
      AddAllStep(idx, prev, tokenize, textProvider, items);
      Add(prev, tokenize, textProvider, x)
  }

  /** One more `add` extends what `addAll` of the prefix promised. */
  lemma AddAllStep<T>(idx: Index<T>, prev: Index<T>, tokenize: string -> seq<Token>, textProvider: T -> string, items: seq<T>)
    requires |items| > 0
    requires prev.Indexed? == idx.Indexed?
    requires Items(prev) == Items(idx) + items[..|items| - 1]
    requires prev.Indexed? ==> prev.entries == idx.entries + Entries(tokenize, textProvider, items[..|items| - 1])
    ensures var r := Add(prev, tokenize, textProvider, items[|items| - 1]);
      && r.Indexed? == idx.Indexed?
      && Items(r) == Items(idx) + items
      && (r.Indexed? ==> r.entries == idx.entries + Entries(tokenize, textProvider, items))
  {
    var prefix := items[..|items| - 1];
    var x := items[|items| - 1];
    var r := Add(prev, tokenize, textProvider, x);
    assert items == prefix + [x];
    assert Items(r) == Items(prev) + [x];
    assert Items(idx) + prefix + [x] == Items(idx) + items;
    if r.Indexed? {
      var e := Entries(tokenize, textProvider, prefix);
      assert r.entries == prev.entries + [Entry(tokenize, textProvider, x)];
      EntriesAppend(tokenize, textProvider, prefix, x);
      assert idx.entries + e + [Entry(tokenize, textProvider, x)] == idx.entries + (e + [Entry(tokenize, textProvider, x)]);
    }
  }

  /** The entries of a list of items, position by position. */
  function Entries<T>(tokenize: string -> seq<Token>, textProvider: T -> string, items: seq<T>): (r: seq<ItemData<T>>)
    ensures |r| == |items|
    ensures forall i :: 0 <= i < |items| ==> r[i] == Entry(tokenize, textProvider, items[i])
  {
    seq(|items|, i requires 0 <= i < |items| => Entry(tokenize, textProvider, items[i]))
  }

  lemma EntriesAppend<T>(tokenize: string -> seq<Token>, textProvider: T -> string, items: seq<T>, x: T)
    ensures Entries(tokenize, textProvider, items + [x]) == Entries(tokenize, textProvider, items) + [Entry(tokenize, textProvider, x)]
  {
  }

  lemma EntriesConcat<T>(tokenize: string -> seq<Token>, textProvider: T -> string, a: seq<T>, b: seq<T>)
    ensures Entries(tokenize, textProvider, a + b) == Entries(tokenize, textProvider, a) + Entries(tokenize, textProvider, b)
  {
  }

  lemma EntriesDrop<T>(tokenize: string -> seq<Token>, textProvider: T -> string, c: seq<T>, k: int)
    requires 0 <= k < |c|
    ensures Entries(tokenize, textProvider, c[..k] + c[k + 1..])
         == Entries(tokenize, textProvider, c)[..k] + Entries(tokenize, textProvider, c)[k + 1..]
  {
    var l := Entries(tokenize, textProvider, c[..k] + c[k + 1..]);
    var r := Entries(tokenize, textProvider, c)[..k] + Entries(tokenize, textProvider, c)[k + 1..];
    assert |l| == |r|;
    forall i | 0 <= i < |l|
      ensures l[i] == r[i]
    {
      if i < k {
        assert (c[..k] + c[k + 1..])[i] == c[i];
      } else {
        assert (c[..k] + c[k + 1..])[i] == c[i + 1];
      }
    }
  }

  lemma ItemValuesDrop<T>(e: seq<ItemData<T>>, k: int)
    requires 0 <= k < |e|
    ensures ItemValues(e[..k] + e[k + 1..]) == ItemValues(e)[..k] + ItemValues(e)[k + 1..]
  {
    var l := ItemValues(e[..k] + e[k + 1..]);
    var r := ItemValues(e)[..k] + ItemValues(e)[k + 1..];
    assert |l| == |r|;
    forall i | 0 <= i < |l|
      ensures l[i] == r[i]
    {
      if i < k {
        assert (e[..k] + e[k + 1..])[i] == e[i];
      } else {
        assert (e[..k] + e[k + 1..])[i] == e[i + 1];
      }
    }
  }

  /** `Array.prototype.indexOf`: the first position holding `x`, or -1. */
  function IndexOf<T(==)>(s: seq<T>, x: T): (r: int)
    ensures -1 <= r < |s|
    ensures r >= 0 ==> s[r] == x && forall j :: 0 <= j < r ==> s[j] != x
    ensures r == -1 <==> x !in s
  {
    if |s| == 0 then -1
    else if s[0] == x then 0
    else
      var k := IndexOf(s[1..], x);
      if k == -1 then -1 else k + 1
  }

  /** `find` of the first entry holding `item`, then `indexOf` of that entry:
      its position, or -1 when `find` found nothing. */
  function FindEntry<T(==)>(entries: seq<ItemData<T>>, item: T): (r: int)
    ensures -1 <= r < |entries|
    ensures r >= 0 ==> entries[r].item == item && forall j :: 0 <= j < r ==> entries[j].item != item
    ensures r == -1 ==> forall j :: 0 <= j < |entries| ==> entries[j].item != item
  {
    if |entries| == 0 then -1
    else if entries[0].item == item then 0
    else
      var k := FindEntry(entries[1..], item);
      if k == -1 then -1 else k + 1
  }

  /** `splice(start, 1)`: a negative start counts from the end (clamped at 0),
      and nothing is removed when the start is past the end. */
  function SpliceOne<T>(s: seq<T>, start: int): seq<T> {
    var k := if start < 0 then (if |s| + start < 0 then 0 else |s| + start)
             else (if start > |s| then |s| else start);
    if k < |s| then s[..k] + s[k + 1..] else s
  }

  /** `remove` as the code has it. Once indexed it drops the first entry
      holding the item, if any. While pending it tests the `indexOf` result
      for truthiness: an item at position 0 stays, and an absent item (-1)
      makes `splice(-1, 1)` drop the last pending item. */
  function Remove<T(==)>(idx: Index<T>, item: T): (r: Index<T>)
    ensures r.Indexed? == idx.Indexed?
    ensures idx.Indexed? ==>
      var k := IndexOf(Items(idx), item);
      && (k == -1 ==> r == idx)
      && (k >= 0 ==> r.entries == idx.entries[..k] + idx.entries[k + 1..])
    ensures idx.Pending? ==>
      var c := idx.itemsCached;
      var k := IndexOf(c, item);
      && (k == 0 ==> r == idx)
      && (k == -1 ==> r.itemsCached == if c == [] then [] else c[..|c| - 1])
      && (k > 0 ==> r.itemsCached == c[..k] + c[k + 1..])
  {
    match idx
    case Indexed(entries) =>
      var k := FindEntry(entries, item);
      FindEntryIsIndexOf(entries, item);
      if k != -1 then Indexed(entries[..k] + entries[k + 1..]) else idx
    case Pending(cached) =>
      var index := IndexOf(cached, item);
      if index != 0 then Pending(SpliceOne(cached, index)) else idx
  }

  lemma FindEntryIsIndexOf<T>(entries: seq<ItemData<T>>, item: T)
    ensures FindEntry(entries, item) == IndexOf(ItemValues(entries), item)
  {
    var k := FindEntry(entries, item);
    var m := IndexOf(ItemValues(entries), item);
    if m >= 0 {
      assert entries[m].item == item;
    }
  }

  /** `remove` never adds an item and removes at most one. */
  lemma RemoveShrinks<T>(idx: Index<T>, item: T)
    ensures multiset(Items(Remove(idx, item))) <= multiset(Items(idx))
    ensures |Items(idx)| - 1 <= |Items(Remove(idx, item))| <= |Items(idx)|
  {
    if idx.Pending? {
      PendingRemoveShrinks(idx.itemsCached, item);
    } else {
      IndexedRemoveShrinks(idx.entries, item);
    }
  }

  lemma PendingRemoveShrinks<T>(c: seq<T>, item: T)
    ensures multiset(Remove(Pending(c), item).itemsCached) <= multiset(c)
    ensures |c| - 1 <= |Remove(Pending(c), item).itemsCached| <= |c|
  {
    var k := IndexOf(c, item);
    if k > 0 {
      DropOne(c, k);
    } else if k == -1 && c != [] {
      DropOne(c, |c| - 1);
      assert c[..|c| - 1] + c[|c|..] == c[..|c| - 1];
    }
  }

  lemma IndexedRemoveShrinks<T>(e: seq<ItemData<T>>, item: T)
    ensures multiset(Items(Remove(Indexed(e), item))) <= multiset(ItemValues(e))
    ensures |e| - 1 <= |Items(Remove(Indexed(e), item))| <= |e|
  {
    var s := ItemValues(e);
    var k := IndexOf(s, item);
    if k >= 0 {
      assert Remove(Indexed(e), item) == Indexed(e[..k] + e[k + 1..]);
      DropEntryShrinks(e, k);
    }
  }

  lemma DropEntryShrinks<T>(e: seq<ItemData<T>>, k: int)
    requires 0 <= k < |e|
    ensures multiset(ItemValues(e[..k] + e[k + 1..])) <= multiset(ItemValues(e))
    ensures |e[..k] + e[k + 1..]| == |e| - 1
  {
    ItemValuesDrop(e, k);
    DropOne(ItemValues(e), k);
  }

  lemma DropOne<T>(s: seq<T>, k: int)
    requires 0 <= k < |s|
    ensures multiset(s[..k] + s[k + 1..]) <= multiset(s)
    ensures |s[..k] + s[k + 1..]| == |s| - 1
  {
    assert s == s[..k] + [s[k]] + s[k + 1..];
  }

  /** `remove` of every item, in order. */
  function RemoveAll<T(==)>(idx: Index<T>, items: seq<T>): (r: Index<T>)
    ensures r.Indexed? == idx.Indexed?
    ensures multiset(Items(r)) <= multiset(Items(idx))
    ensures |Items(idx)| - |items| <= |Items(r)| <= |Items(idx)|
    ensures idx.Indexed? ==> multiset(Items(r)) == multiset(Items(idx)) - multiset(items)
    decreases |items|
  {
    if |items| == 0 then idx
    else
      var prev := RemoveAll(idx, items[..|items| - 1]);
      RemoveAllStep(idx, prev, items);
      Remove(prev, items[|items| - 1])
  }

  /** One more `remove` extends what `removeAll` of the prefix promised. */
  lemma RemoveAllStep<T>(idx: Index<T>, prev: Index<T>, items: seq<T>)
    requires |items| > 0
    requires prev.Indexed? == idx.Indexed?
    requires multiset(Items(prev)) <= multiset(Items(idx))
    requires |Items(idx)| - (|items| - 1) <= |Items(prev)| <= |Items(idx)|
    requires idx.Indexed? ==> multiset(Items(prev)) == multiset(Items(idx)) - multiset(items[..|items| - 1])
    ensures var r := Remove(prev, items[|items| - 1]);
      && r.Indexed? == idx.Indexed?
      && multiset(Items(r)) <= multiset(Items(idx))
      && |Items(idx)| - |items| <= |Items(r)| <= |Items(idx)|
      && (idx.Indexed? ==> multiset(Items(r)) == multiset(Items(idx)) - multiset(items))
  {
    var p := items[..|items| - 1];
    var x := items[|items| - 1];
    var r := Remove(prev, x);
    RemoveShrinks(prev, x);
    if idx.Indexed? {
      assert multiset(Items(r)) == multiset(Items(prev)) - multiset{x} by {
        IndexedRemoveMultiset(prev.entries, x);
      }
      MinusLast(multiset(Items(idx)), items);
    }
  }

  /** Once indexed, `remove` takes exactly one occurrence of the item out of
      the items, or nothing when it is absent. */
  lemma IndexedRemoveMultiset<T>(e: seq<ItemData<T>>, x: T)
    ensures multiset(Items(Remove(Indexed(e), x))) == multiset(ItemValues(e)) - multiset{x}
  {
    var s := ItemValues(e);
    var k := IndexOf(s, x);
    if k == -1 {
      assert Remove(Indexed(e), x) == Indexed(e) by {
        IndexedRemoveAt(e, x, s);
      }
      AbsentMinus(s, x);
    } else {
      assert Remove(Indexed(e), x) == Indexed(e[..k] + e[k + 1..]) by {
        IndexedRemoveAt(e, x, s);
      }
      assert ItemValues(e[..k] + e[k + 1..]) == s[..k] + s[k + 1..] by {
        ItemValuesDrop(e, k);
      }
      DropOneMultiset(s, k);
    }
  }

  lemma AbsentMinus<T>(s: seq<T>, x: T)
    requires x !in s
    ensures multiset(s) - multiset{x} == multiset(s)
  {
    assert x !in multiset(s);
  }

  lemma DropOneMultiset<T>(s: seq<T>, k: int)
    requires 0 <= k < |s|
    ensures multiset(s[..k] + s[k + 1..]) == multiset(s) - multiset{s[k]}
  {
    assert s == s[..k] + [s[k]] + s[k + 1..];
  }

  /** Taking away all but the last item, then the last one when still
      present, is taking away all the items. */
  lemma MinusLast<T>(m: multiset<T>, items: seq<T>)
    requires |items| > 0
    ensures (m - multiset(items[..|items| - 1])) - multiset{items[|items| - 1]} == m - multiset(items)
  {
    var p := items[..|items| - 1];
    assert items == p + [items[|items| - 1]];
    assert multiset(items) == multiset(p) + multiset{items[|items| - 1]};
  }

  /** `initIndex`: every pending item, in order, becomes its entry. */
  function InitIndex<T>(tokenize: string -> seq<Token>, textProvider: T -> string, itemsCached: seq<T>): (r: seq<ItemData<T>>)
    ensures ItemValues(r) == itemsCached
    ensures forall i :: 0 <= i < |r| ==> r[i].text == tokenize(textProvider(itemsCached[i]))
  {
    var r := Entries(tokenize, textProvider, itemsCached);
    assert ItemValues(r) == itemsCached;
    r
  }

  /** `initIndex` as the code writes it: start from an empty indexed list
      and `add` every pending item in turn. */
  lemma InitIndexIsAddAll<T>(tokenize: string -> seq<Token>, textProvider: T -> string, itemsCached: seq<T>)
    ensures AddAll(Indexed([]), tokenize, textProvider, itemsCached) == Indexed(InitIndex(tokenize, textProvider, itemsCached))
  {
  }

  /** The `indexedItems` getter: the entries, and the index after the access.
      The first access indexes every pending item in order; later accesses
      return the same entries untouched. */
  function IndexedItems<T>(idx: Index<T>, tokenize: string -> seq<Token>, textProvider: T -> string): (r: (seq<ItemData<T>>, Index<T>))
    ensures r.1 == Indexed(r.0)
    ensures Items(r.1) == Items(idx)
    ensures idx.Indexed? ==> r.0 == idx.entries
    ensures idx.Pending? ==> r.0 == Entries(tokenize, textProvider, idx.itemsCached)
  {
    match idx
    case Indexed(entries) => (entries, idx)
    case Pending(cached) =>
      var entries := InitIndex(tokenize, textProvider, cached);
      (entries, Indexed(entries))
  }

  /** The index after an `indexedItems` access. */
  function Force<T>(idx: Index<T>, tokenize: string -> seq<Token>, textProvider: T -> string): Index<T> {
    IndexedItems(idx, tokenize, textProvider).1
  }

  /** A direct call of the public `initIndex`: it starts an empty indexed
      list and adds the pending items to it. While pending this is the first
      `indexedItems` access; once indexed the pending list is already empty,
      so every entry is dropped. */
  function CallInitIndex<T>(idx: Index<T>, tokenize: string -> seq<Token>, textProvider: T -> string): (r: Index<T>)
    ensures r.Indexed?
    ensures idx.Pending? ==> r == Force(idx, tokenize, textProvider)
    ensures idx.Indexed? ==> Items(r) == []
  {
    match idx
    case Pending(cached) => Indexed(InitIndex(tokenize, textProvider, cached))
    case Indexed(_) => Indexed(InitIndex(tokenize, textProvider, []))
  }

  /** Calling `initIndex` on an index that is already indexed loses every
      item, whereas an `indexedItems` access keeps them all. */
  lemma ReindexLosesItems<T>(e: seq<ItemData<T>>, tokenize: string -> seq<Token>, textProvider: T -> string)
    requires |e| > 0
    ensures Items(Force(Indexed(e), tokenize, textProvider)) == ItemValues(e) != []
    ensures Items(CallInitIndex(Indexed(e), tokenize, textProvider)) == []
  {
    assert ItemValues(e)[0] == e[0].item;
  }

  // ---------------------------------------------------------------------
  // Laziness

  /** Every entry holds the tokens of its own item's text (nothing to check
      while pending). */
  predicate WellIndexed<T>(idx: Index<T>, tokenize: string -> seq<Token>, textProvider: T -> string) {
    idx.Indexed? ==> forall i :: 0 <= i < |idx.entries| ==> Fresh(tokenize, textProvider, idx.entries[i])
  }

  /** The entry holds the tokens of its item's current text. */
  predicate Fresh<T>(tokenize: string -> seq<Token>, textProvider: T -> string, d: ItemData<T>) {
    d.text == tokenize(textProvider(d.item))
  }

  /** `add`, `remove` and the first `indexedItems` access all keep every
      entry's tokens those of its item's text. */
  lemma OperationsKeepWellIndexed<T>(idx: Index<T>, tokenize: string -> seq<Token>, textProvider: T -> string, item: T)
    requires WellIndexed(idx, tokenize, textProvider)
    ensures WellIndexed(Add(idx, tokenize, textProvider, item), tokenize, textProvider)
    ensures WellIndexed(Remove(idx, item), tokenize, textProvider)
    ensures WellIndexed(Force(idx, tokenize, textProvider), tokenize, textProvider)
  {
    AddKeepsWellIndexed(idx, tokenize, textProvider, item);
    ForceIsWellIndexed(idx, tokenize, textProvider);
    if idx.Indexed? {
      IndexedRemoveKeepsWellIndexed(idx.entries, tokenize, textProvider, item);
    }
  }

  lemma AddKeepsWellIndexed<T>(idx: Index<T>, tokenize: string -> seq<Token>, textProvider: T -> string, item: T)
    requires WellIndexed(idx, tokenize, textProvider)
    ensures WellIndexed(Add(idx, tokenize, textProvider, item), tokenize, textProvider)
  {
    if idx.Indexed? {
      var r := idx.entries + [Entry(tokenize, textProvider, item)];
      assert Add(idx, tokenize, textProvider, item) == Indexed(r);
      assert Fresh(tokenize, textProvider, r[|r| - 1]);
    }
  }

  lemma ForceIsWellIndexed<T>(idx: Index<T>, tokenize: string -> seq<Token>, textProvider: T -> string)
    requires WellIndexed(idx, tokenize, textProvider)
    ensures WellIndexed(Force(idx, tokenize, textProvider), tokenize, textProvider)
  {
    if idx.Pending? {
      var e := Entries(tokenize, textProvider, idx.itemsCached);
      assert Force(idx, tokenize, textProvider) == Indexed(e);
      forall i | 0 <= i < |e| ensures Fresh(tokenize, textProvider, e[i]) {
        assert e[i] == Entry(tokenize, textProvider, idx.itemsCached[i]);
      }
    }
  }

  lemma IndexedRemoveKeepsWellIndexed<T>(e: seq<ItemData<T>>, tokenize: string -> seq<Token>, textProvider: T -> string, item: T)
    requires WellIndexed(Indexed(e), tokenize, textProvider)
    ensures WellIndexed(Remove(Indexed(e), item), tokenize, textProvider)
  {
    var k := FindEntry(e, item);
    var r := Remove(Indexed(e), item);
    if k == -1 {
      assert r == Indexed(e);
    } else {
      assert r == Indexed(e[..k] + e[k + 1..]);
      DropKeepsFresh(e, tokenize, textProvider, k);
    }
  }

  lemma DropKeepsFresh<T>(e: seq<ItemData<T>>, tokenize: string -> seq<Token>, textProvider: T -> string, k: int)
    requires 0 <= k < |e|
    requires WellIndexed(Indexed(e), tokenize, textProvider)
    ensures WellIndexed(Indexed(e[..k] + e[k + 1..]), tokenize, textProvider)
  {
    var r := e[..k] + e[k + 1..];
    forall i | 0 <= i < |r| ensures Fresh(tokenize, textProvider, r[i]) {
      DropIndex(e, k, i);
    }
  }

  /** Position `i` after dropping position `k`. */
  lemma DropIndex<X>(s: seq<X>, k: int, i: int)
    requires 0 <= k < |s| && 0 <= i < |s| - 1
    ensures (s[..k] + s[k + 1..])[i] == s[if i < k then i else i + 1]
  {
  }

  /** `addAll` and `removeAll` keep the index well formed too. */
  lemma {:induction false} FoldsKeepWellIndexed<T>(idx: Index<T>, tokenize: string -> seq<Token>, textProvider: T -> string, items: seq<T>)
    requires WellIndexed(idx, tokenize, textProvider)
    ensures WellIndexed(AddAll(idx, tokenize, textProvider, items), tokenize, textProvider)
    ensures WellIndexed(RemoveAll(idx, items), tokenize, textProvider)
    decreases |items|
  {
    if |items| > 0 {
      var p := items[..|items| - 1];
      FoldsKeepWellIndexed(idx, tokenize, textProvider, p);
      OperationsKeepWellIndexed(AddAll(idx, tokenize, textProvider, p), tokenize, textProvider, items[|items| - 1]);
      OperationsKeepWellIndexed(RemoveAll(idx, p), tokenize, textProvider, items[|items| - 1]);
    }
  }

  /** A second access changes nothing and returns the same entries. */
  lemma IndexedItemsIdempotent<T>(idx: Index<T>, tokenize: string -> seq<Token>, textProvider: T -> string)
    ensures IndexedItems(Force(idx, tokenize, textProvider), tokenize, textProvider) == IndexedItems(idx, tokenize, textProvider)
  {
  }

  /** Adding items and then indexing gives the same index as indexing and
      then adding them: the pending state is not observable through `add`. */
  lemma AddAllCommutesWithIndexing<T>(idx: Index<T>, tokenize: string -> seq<Token>, textProvider: T -> string, items: seq<T>)
    ensures Force(AddAll(idx, tokenize, textProvider, items), tokenize, textProvider)
         == AddAll(Force(idx, tokenize, textProvider), tokenize, textProvider, items)
  {
    if idx.Pending? {
      var c := idx.itemsCached;
      assert AddAll(idx, tokenize, textProvider, items) == Pending(c + items);
      assert InitIndex(tokenize, textProvider, c) == Entries(tokenize, textProvider, c);
      assert InitIndex(tokenize, textProvider, c + items) == Entries(tokenize, textProvider, c + items);
      EntriesConcat(tokenize, textProvider, c, items);
    }
  }

  /** The intended pending-mode `remove`: drop the first occurrence of the
      item, and nothing when it is absent. */
  function RemovePendingIntended<T(==)>(cached: seq<T>, item: T): (r: seq<T>)
    ensures item !in cached ==> r == cached
    ensures item in cached ==> multiset(r) == multiset(cached) - multiset{item} && |r| == |cached| - 1
  {
    var index := IndexOf(cached, item);
    if index != -1 then
      assert cached == cached[..index] + [item] + cached[index + 1..];
      cached[..index] + cached[index + 1..]
    else cached
  }

  /** With the intended pending-mode `remove`, removing and then indexing
      gives the same index as indexing and then removing. */
  lemma RemoveIntendedCommutesWithIndexing<T>(c: seq<T>, tokenize: string -> seq<Token>, textProvider: T -> string, item: T)
    ensures Force(Pending(RemovePendingIntended(c, item)), tokenize, textProvider)
         == Remove(Force(Pending(c), tokenize, textProvider), item)
  {
    var e := Entries(tokenize, textProvider, c);
    assert Force(Pending(c), tokenize, textProvider) == Indexed(e) by {
      ForcePending(c, tokenize, textProvider);
    }
    ForcePending(RemovePendingIntended(c, item), tokenize, textProvider);
    assert ItemValues(e) == c;
    if IndexOf(c, item) == -1 {
      IndexedRemoveAt(e, item, c);
    } else {
      RemoveIntendedPresent(c, tokenize, textProvider, item, e);
    }
  }

  lemma RemoveIntendedPresent<T>(c: seq<T>, tokenize: string -> seq<Token>, textProvider: T -> string, item: T, e: seq<ItemData<T>>)
    requires e == Entries(tokenize, textProvider, c) && ItemValues(e) == c
    requires IndexOf(c, item) != -1
    ensures Indexed(Entries(tokenize, textProvider, RemovePendingIntended(c, item))) == Remove(Indexed(e), item)
  {
    var k := IndexOf(c, item);
    var d := e[..k] + e[k + 1..];
    assert Remove(Indexed(e), item) == Indexed(d) by {
      IndexedRemoveAt(e, item, c);
    }
    assert Entries(tokenize, textProvider, c[..k] + c[k + 1..]) == d by {
      EntriesDrop(tokenize, textProvider, c, k);
    }
    IntendedDropsFirst(c, item);
  }

  lemma IntendedDropsFirst<T>(c: seq<T>, item: T)
    requires IndexOf(c, item) != -1
    ensures RemovePendingIntended(c, item) == c[..IndexOf(c, item)] + c[IndexOf(c, item) + 1..]
  {
  }

  lemma ForcePending<T>(c: seq<T>, tokenize: string -> seq<Token>, textProvider: T -> string)
    ensures Force(Pending(c), tokenize, textProvider) == Indexed(Entries(tokenize, textProvider, c))
  {
    assert InitIndex(tokenize, textProvider, c) == Entries(tokenize, textProvider, c);
  }

  lemma IndexedRemoveAt<T>(e: seq<ItemData<T>>, item: T, c: seq<T>)
    requires ItemValues(e) == c
    ensures var k := IndexOf(c, item);
      Remove(Indexed(e), item) == if k == -1 then Indexed(e) else Indexed(e[..k] + e[k + 1..])
  {
    var k := IndexOf(c, item);
    var r := Remove(Indexed(e), item);
    assert Items(Indexed(e)) == c;
    if k == -1 {
      assert r == Indexed(e);
    } else {
      assert r.entries == e[..k] + e[k + 1..];
    }
  }

  /** The code's pending-mode `remove` differs from its indexed-mode
      `remove` whenever the item is first in the list: it is kept. */
  lemma PendingRemoveKeepsFirstItem<T>(c: seq<T>, tokenize: string -> seq<Token>, textProvider: T -> string)
    requires |c| > 0
    ensures Items(Remove(Pending(c), c[0])) == c
    ensures Items(Remove(Force(Pending(c), tokenize, textProvider), c[0])) == c[1..]
  {
    assert Items(Remove(Pending(c), c[0])) == c by {
      assert IndexOf(c, c[0]) == 0;
    }
    var e := Entries(tokenize, textProvider, c);
    assert Force(Pending(c), tokenize, textProvider) == Indexed(e) by {
      ForcePending(c, tokenize, textProvider);
    }
    assert Remove(Indexed(e), c[0]) == Indexed(e[1..]) by {
      assert IndexOf(c, c[0]) == 0;
      assert ItemValues(e) == c;
      IndexedRemoveAt(e, c[0], c);
      assert e[..0] + e[1..] == e[1..];
    }
    assert ItemValues(e[1..]) == c[1..] by {
      assert ItemValues(e) == c;
    }
  }

  /** ... and whenever the item is absent from a non-empty list: the last
      pending item is dropped instead of nothing. */
  lemma PendingRemoveOfAbsentDropsLast<T>(c: seq<T>, tokenize: string -> seq<Token>, textProvider: T -> string, item: T)
    requires |c| > 0 && item !in c
    ensures Items(Remove(Pending(c), item)) == c[..|c| - 1]
    ensures Items(Remove(Force(Pending(c), tokenize, textProvider), item)) == c
  {
    assert Items(Force(Pending(c), tokenize, textProvider)) == c;
  }
}

=== FILE: matching.dfy ===
/** The matching algorithm both engines run on one tokenized text: the query
    tokens, the first-prefix-match rule for each token of the text, the
    highlight spans, the set of query tokens matched, and the same-order latch. */
module Matching {
  import opened Common
  import opened Tokenizer

  /** One highlight span: text taken verbatim from the source text. */
  datatype HighlightItem = HighlightItem(text: string, isMatched: bool)

  /** The text of all highlight spans, in order. */
  function HighlightText(hs: seq<HighlightItem>): string {
    if |hs| == 0 then [] else HighlightText(hs[..|hs| - 1]) + hs[|hs| - 1].text
  }

  lemma HighlightTextConcat(a: seq<HighlightItem>, b: seq<HighlightItem>)
    ensures HighlightText(a + b) == HighlightText(a) + HighlightText(b)
    decreases |b|
  {
    if |b| > 0 {
      var b' := b[..|b| - 1];
      assert (a + b)[..|a + b| - 1] == a + b';
      assert (a + b)[|a + b| - 1] == b[|b| - 1];
      HighlightTextConcat(a, b');
      assert HighlightText(a + b) == HighlightText(a + b') + b[|b| - 1].text;
    } else {
      assert a + b == a;
    }
  }

  /** The upper-cased texts of the matched spans, in order. */
  function MatchedTexts(hs: seq<HighlightItem>): seq<string> {
    if |hs| == 0 then []
    else MatchedTexts(hs[..|hs| - 1]) + (if hs[|hs| - 1].isMatched then [Upper(hs[|hs| - 1].text)] else [])
  }

  lemma {:induction false} MatchedTextsConcat(a: seq<HighlightItem>, b: seq<HighlightItem>)
    ensures MatchedTexts(a + b) == MatchedTexts(a) + MatchedTexts(b)
    decreases |b|
  {
    if |b| > 0 {
      var b' := b[..|b| - 1];
      assert (a + b)[..|a + b| - 1] == a + b';
      assert (a + b)[|a + b| - 1] == b[|b| - 1];
      MatchedTextsConcat(a, b');
    } else {
      assert a + b == a;
    }
  }

  // ---------------------------------------------------------------------
  // Query tokens

  /** The upper-cased texts of the token spans, in order; separators dropped. */
  function UpperTokenTexts(spans: seq<Token>): seq<string> {
    if |spans| == 0 then []
    else
      var last := spans[|spans| - 1];
      UpperTokenTexts(spans[..|spans| - 1]) + (if last.isToken then [Upper(last.text)] else [])
  }

  /** All strings of a sequence, concatenated. */
  function Flatten(ss: seq<string>): string {
    if |ss| == 0 then [] else Flatten(ss[..|ss| - 1]) + ss[|ss| - 1]
  }

  /** The text with every separator character removed. */
  function Unsplit(cfg: Config, s: string): string {
    if |s| == 0 then []
    else Unsplit(cfg, s[..|s| - 1]) + (if IsSplit(cfg, s[|s| - 1]) then [] else [s[|s| - 1]])
  }

  /** `getQueryTokens`: the upper-cased token spans of the query. Each is
      non-empty and upper case, and together they spell the upper-cased query
      with its separators removed. */
  function QueryTokens(cfg: Config, query: string): (qs: seq<string>)
    ensures forall i :: 0 <= i < |qs| ==> qs[i] != [] && Upper(qs[i]) == qs[i]
    ensures Flatten(qs) == Upper(Unsplit(cfg, query))
  {
    var spans := Tokenize(cfg, query);
    UpperTokenTextsProperties(cfg, spans);
    UpperTokenTexts(spans)
  }

  /** A query that is empty or made only of separators has no tokens. */
  lemma SeparatorQueryHasNoTokens(cfg: Config, query: string)
    requires forall i :: 0 <= i < |query| ==> IsSplit(cfg, query[i])
    ensures QueryTokens(cfg, query) == []
  {
    SeparatorScan(cfg, query);
    NoTokenSpans(Scan(cfg, query).answer);
  }

  lemma {:induction false} SeparatorScan(cfg: Config, s: string)
    requires forall i :: 0 <= i < |s| ==> IsSplit(cfg, s[i])
    ensures Scan(cfg, s).currentToken == []
    ensures forall j :: 0 <= j < |Scan(cfg, s).answer| ==> !Scan(cfg, s).answer[j].isToken
    decreases |s|
  {
    if |s| > 0 {
      SeparatorScan(cfg, s[..|s| - 1]);
    }
  }

  lemma {:induction false} NoTokenSpans(spans: seq<Token>)
    requires forall j :: 0 <= j < |spans| ==> !spans[j].isToken
    ensures UpperTokenTexts(spans) == []
    decreases |spans|
  {
    if |spans| > 0 {
      NoTokenSpans(spans[..|spans| - 1]);
    }
  }

  lemma UnsplitConcat(cfg: Config, a: string, b: string)
    ensures Unsplit(cfg, a + b) == Unsplit(cfg, a) + Unsplit(cfg, b)
    decreases |b|
  {
    if |b| > 0 {
      var b' := b[..|b| - 1];
      var c := b[|b| - 1];
      var tail := if IsSplit(cfg, c) then [] else [c];
      assert (a + b)[..|a + b| - 1] == a + b';
      assert (a + b)[|a + b| - 1] == c;
      UnsplitConcat(cfg, a, b');
      assert Unsplit(cfg, a + b) == Unsplit(cfg, a + b') + tail;
      assert Unsplit(cfg, b) == Unsplit(cfg, b') + tail;
    } else {
      assert a + b == a;
    }
  }

  lemma UnsplitNoSplit(cfg: Config, s: string)
    requires NoSplit(cfg, s)
    ensures Unsplit(cfg, s) == s
    decreases |s|
  {
    if |s| > 0 {
      UnsplitNoSplit(cfg, s[..|s| - 1]);
    }
  }

  lemma {:induction false} UpperTokenTextsProperties(cfg: Config, spans: seq<Token>)
    requires AllNonEmpty(spans) && SeparatorsAreSymbols(cfg, spans) && TokensHaveNoSplit(cfg, spans)
    ensures var qs := UpperTokenTexts(spans);
      && (forall i :: 0 <= i < |qs| ==> qs[i] != [] && Upper(qs[i]) == qs[i])
      && Flatten(qs) == Upper(Unsplit(cfg, Joined(spans)))
    decreases |spans|
  {
    if |spans| > 0 {
      var p := spans[..|spans| - 1];
      var t := spans[|spans| - 1];
      UpperTokenTextsProperties(cfg, p);
      UnsplitConcat(cfg, Joined(p), t.text);
      UpperConcat(Unsplit(cfg, Joined(p)), Unsplit(cfg, t.text));
      var qs := UpperTokenTexts(p);
      if t.isToken {
        UnsplitNoSplit(cfg, t.text);
        var u := Upper(t.text);
        assert Flatten(qs + [u]) == Flatten(qs) + u by {
          assert (qs + [u])[..|qs|] == qs;
        }
        UpperIdempotent(t.text);
      } else {
        assert Unsplit(cfg, t.text) == [] by {
          assert t.text == [t.text[0]];
          assert Unsplit(cfg, t.text[..0]) == [];
        }
        assert qs + [] == qs;
      }
    }
  }

  // ---------------------------------------------------------------------
  // Matching one token of the text

  /** The first query token, in list order, that is a prefix of the
      upper-cased token text (`indexOf(token) == 0`); later ones are never
      considered. */
  function FirstMatch(qs: seq<string>, text: string): (r: Option<nat>)
    ensures r.Some? ==>
      && r.value < |qs|
      && qs[r.value] <= Upper(text)
      && forall j :: 0 <= j < r.value ==> !(qs[j] <= Upper(text))
    ensures r.None? ==> forall j :: 0 <= j < |qs| ==> !(qs[j] <= Upper(text))
  {
    if |qs| == 0 then None
    else if qs[0] <= Upper(text) then Some(0)
    else
      match FirstMatch(qs[1..], text)
      case None => None
      case Some(i) => Some(i + 1)
  }

  /** The query token just before position `i`, or "" at position 0
      (`tokenPrev`). */
  function Prev(qs: seq<string>, i: nat): string
    requires i < |qs|
  {
    if i == 0 then [] else qs[i - 1]
  }

  // ---------------------------------------------------------------------
  // Scanning one text

  /** The loop variables of the scan over one tokenized text. */
  datatype FieldState = FieldState(
    highlight: seq<HighlightItem>,
    queryTokensMatched: set<string>,
    currentText: string,
    lastMatchedToken: string,
    isSameOrder: bool)

  /** One iteration, for one span of the text. A separator is held back in
      `currentText`. A token matched by query token `q` flushes the held-back
      text, then emits its first |q| characters as matched and the rest (even
      when empty) as unmatched. An unmatched token is emitted together with
      the held-back text. */
  function FieldStep(qs: seq<string>, st: FieldState, span: Token): FieldState {
    if !span.isToken then
      st.(currentText := st.currentText + span.text)
    else
      match FirstMatch(qs, span.text)
      case None =>
        st.(highlight := st.highlight + [HighlightItem(st.currentText + span.text, false)], currentText := [])
      case Some(i) =>
        var token := qs[i];
        FieldState(
          st.highlight
            + (if st.currentText != [] then [HighlightItem(st.currentText, false)] else [])
            + [HighlightItem(span.text[..|token|], true), HighlightItem(span.text[|token|..], false)],
          st.queryTokensMatched + {token},
          [],
          token,
          st.isSameOrder && st.lastMatchedToken == Prev(qs, i))
  }

  /** The loop state after scanning all of `spans`, left to right. */
  function FieldScan(qs: seq<string>, spans: seq<Token>): FieldState
    decreases |spans|
  {
    if |spans| == 0 then FieldState([], {}, [], [], true)
    else FieldStep(qs, FieldScan(qs, spans[..|spans| - 1]), spans[|spans| - 1])
  }

  /** What the scan of one text yields. */
  datatype FieldOutcome = FieldOutcome(highlight: seq<HighlightItem>, queryTokensMatched: set<string>, isSameOrder: bool)

  /** The query token that wins `text` (first prefix match) is `q`. */
  predicate WonBy(qs: seq<string>, text: string, q: string) {
    FirstMatch(qs, text).Some? && qs[FirstMatch(qs, text).value] == q
  }

  /** Span `p` of the highlight is the matched prefix of token `j` of the
      text: it starts exactly where token `j` starts, the unmatched span after
      it is the rest of that token, and upper-cased it is the query token
      that wins that token. */
  predicate IsTokenMatch(qs: seq<string>, spans: seq<Token>, hl: seq<HighlightItem>, p: int, j: int) {
    && 0 <= p && p + 1 < |hl| && 0 <= j < |spans|
    && hl[p].isMatched && !hl[p + 1].isMatched
    && spans[j].isToken
    && HighlightText(hl[..p]) == Joined(spans[..j])
    && hl[p].text + hl[p + 1].text == spans[j].text
    && WonBy(qs, spans[j].text, Upper(hl[p].text))
  }

  /** Span `p` of the highlight is a matched span. */
  predicate IsMatchedAt(hl: seq<HighlightItem>, p: int) {
    0 <= p < |hl| && hl[p].isMatched
  }

  /** Every matched span is the matched prefix of the token of the text at
      its own position. */
  predicate MatchedSpansSound(qs: seq<string>, spans: seq<Token>, hl: seq<HighlightItem>) {
    forall p :: 0 <= p < |hl| && IsMatchedAt(hl, p) ==> exists j :: 0 <= j < |spans| && IsTokenMatch(qs, spans, hl, p, j)
  }

  /** Every token of the text that some query token wins has its matched
      prefix span in the highlight, at its own position. */
  predicate WonTokensHighlighted(qs: seq<string>, spans: seq<Token>, hl: seq<HighlightItem>) {
    forall j :: 0 <= j < |spans| && spans[j].isToken && FirstMatch(qs, spans[j].text).Some? ==>
      exists p :: 0 <= p < |hl| && IsTokenMatch(qs, spans, hl, p, j)
  }

  /** The scan of one text followed by the final flush of held-back text
      (shared by `doFilterItemTokenizedText` and the single-field
      `doFilterItem`). The spans give back the text exactly; every matched
      span is the winning query token's prefix of the token at its position,
      and every won token has such a span; the matched spans upper-cased are
      exactly the winning query tokens in text order; and only query tokens
      are recorded as matched. */
  function ScanText(spans: seq<Token>, qs: seq<string>): (o: FieldOutcome)
    ensures HighlightText(o.highlight) == Joined(spans)
    ensures MatchedSpansSound(qs, spans, o.highlight)
    ensures WonTokensHighlighted(qs, spans, o.highlight)
    ensures MatchedTexts(o.highlight) == WinnerTokens(qs, spans)
    ensures o.queryTokensMatched <= ElemSet(qs)
  {
    var st := FieldScan(qs, spans);
    FieldScanRebuilds(qs, spans);
    FieldScanSound(qs, spans);
    FieldScanHighlightsWinners(qs, spans);
    FieldScanMatchedAreQueryTokens(qs, spans);
    var tail := if st.currentText != [] then [HighlightItem(st.currentText, false)] else [];
    HighlightTextConcat(st.highlight, tail);
    MatchedTextsConcat(st.highlight, tail);
    assert MatchedTexts(tail) == [] by {
      if tail != [] {
        assert tail[..0] == [];
      }
    }
    assert HighlightText(tail) == st.currentText by {
      if tail != [] {
        assert HighlightText(tail) == HighlightText([]) + st.currentText;
      }
    }
    assert MatchedSpansSound(qs, spans, st.highlight + tail) && WonTokensHighlighted(qs, spans, st.highlight + tail) by {
      assert spans[..|spans|] == spans;
      LiftSound(qs, spans, spans, st.highlight, st.highlight + tail);
    }
    FieldOutcome(st.highlight + tail, st.queryTokensMatched, st.isSameOrder)
  }

  /** No query token is empty, as `QueryTokens` guarantees. */
  predicate NonEmptyTokens(qs: seq<string>) {
    forall i :: 0 <= i < |qs| ==> qs[i] != []
  }

  /** The text counts as matched when as many distinct query tokens were
      matched as there are query tokens. */
  predicate IsComplete(o: FieldOutcome, qs: seq<string>) {
    |o.queryTokensMatched| == |qs|
  }

  // ---------------------------------------------------------------------
  // Scan invariants

  lemma {:induction false} FieldScanRebuilds(qs: seq<string>, spans: seq<Token>)
    ensures HighlightText(FieldScan(qs, spans).highlight) + FieldScan(qs, spans).currentText == Joined(spans)
    decreases |spans|
  {
    if |spans| > 0 {
      var p := spans[..|spans| - 1];
      FieldScanRebuilds(qs, p);
      FieldStepRebuilds(qs, FieldScan(qs, p), spans[|spans| - 1]);
    }
  }

  lemma FieldStepRebuilds(qs: seq<string>, st: FieldState, span: Token)
    ensures HighlightText(FieldStep(qs, st, span).highlight) + FieldStep(qs, st, span).currentText
         == HighlightText(st.highlight) + st.currentText + span.text
  {
    if span.isToken {
      match FirstMatch(qs, span.text)
      case None =>
        UnmatchedRebuilds(st.highlight, st.currentText + span.text);
      case Some(i) =>
        MatchedRebuilds(st.highlight, st.currentText, span.text, |qs[i]|);
    }
  }

  lemma HighlightTextOne(h: HighlightItem)
    ensures HighlightText([h]) == h.text
  {
    assert HighlightText([h]) == HighlightText([]) + h.text;
  }

  lemma UnmatchedRebuilds(hl: seq<HighlightItem>, t: string)
    ensures HighlightText(hl + [HighlightItem(t, false)]) == HighlightText(hl) + t
  {
    HighlightTextConcat(hl, [HighlightItem(t, false)]);
    HighlightTextOne(HighlightItem(t, false));
  }

  /** Flushing the held-back text and splitting the token at `n` loses and
      adds nothing. */
  lemma MatchedRebuilds(hl: seq<HighlightItem>, held: string, text: string, n: nat)
    requires n <= |text|
    ensures var flushed := if held != [] then [HighlightItem(held, false)] else [];
      HighlightText(hl + flushed + [HighlightItem(text[..n], true), HighlightItem(text[n..], false)])
        == HighlightText(hl) + held + text
  {
    var flushed := if held != [] then [HighlightItem(held, false)] else [];
    var pair := [HighlightItem(text[..n], true), HighlightItem(text[n..], false)];
    assert HighlightText(hl + flushed) == HighlightText(hl) + held by {
      if held != [] {
        UnmatchedRebuilds(hl, held);
      } else {
        assert hl + flushed == hl;
      }
    }
    assert HighlightText(pair) == text by {
      assert pair[..1] == [pair[0]];
      HighlightTextOne(pair[0]);
      assert text[..n] + text[n..] == text;
    }
    HighlightTextConcat(hl + flushed, pair);
  }

  lemma {:induction false} FieldScanMatchedAreQueryTokens(qs: seq<string>, spans: seq<Token>)
    ensures FieldScan(qs, spans).queryTokensMatched <= ElemSet(qs)
    decreases |spans|
  {
    if |spans| > 0 {
      FieldScanMatchedAreQueryTokens(qs, spans[..|spans| - 1]);
    }
  }

  /** A token match survives extending the text and the highlight: nothing
      before it changes. */
  lemma LiftMatch(qs: seq<string>, pre: seq<Token>, spans: seq<Token>, hl: seq<HighlightItem>, hl2: seq<HighlightItem>, p: int, j: int)
    requires |pre| <= |spans| && pre == spans[..|pre|]
    requires |hl| <= |hl2| && hl == hl2[..|hl|]
    requires IsTokenMatch(qs, pre, hl, p, j)
    ensures IsTokenMatch(qs, spans, hl2, p, j)
  {
    assert hl2[..p] == hl[..p] && hl2[p] == hl[p] && hl2[p + 1] == hl[p + 1];
    assert spans[..j] == pre[..j] && spans[j] == pre[j];
  }

  /** Soundness and the highlighting of won tokens survive extending the
      text and appending unmatched spans to the highlight. */
  lemma LiftSound(qs: seq<string>, pre: seq<Token>, spans: seq<Token>, hl: seq<HighlightItem>, hl2: seq<HighlightItem>)
    requires |pre| <= |spans| && pre == spans[..|pre|]
    requires |hl| <= |hl2| && hl == hl2[..|hl|]
    requires MatchedSpansSound(qs, pre, hl) && WonTokensHighlighted(qs, pre, hl)
    requires forall p :: |hl| <= p < |hl2| ==> !IsMatchedAt(hl2, p)
    ensures MatchedSpansSound(qs, spans, hl2)
    ensures forall j :: 0 <= j < |pre| && spans[j].isToken && FirstMatch(qs, spans[j].text).Some? ==>
      exists p :: 0 <= p < |hl2| && IsTokenMatch(qs, spans, hl2, p, j)
    ensures |pre| == |spans| ==> WonTokensHighlighted(qs, spans, hl2)
  {
    forall p | IsMatchedAt(hl2, p)
      ensures exists j :: 0 <= j < |spans| && IsTokenMatch(qs, spans, hl2, p, j)
    {
      assert p < |hl| && hl[p] == hl2[p];
      assert IsMatchedAt(hl, p);
      var j :| 0 <= j < |pre| && IsTokenMatch(qs, pre, hl, p, j);
      LiftMatch(qs, pre, spans, hl, hl2, p, j);
    }
    forall j | 0 <= j < |pre| && spans[j].isToken && FirstMatch(qs, spans[j].text).Some?
      ensures exists p :: 0 <= p < |hl2| && IsTokenMatch(qs, spans, hl2, p, j)
    {
      assert spans[j] == pre[j];
      var p :| 0 <= p < |hl| && IsTokenMatch(qs, pre, hl, p, j);
      LiftMatch(qs, pre, spans, hl, hl2, p, j);
    }
  }

  lemma {:induction false} FieldScanSound(qs: seq<string>, spans: seq<Token>)
    ensures MatchedSpansSound(qs, spans, FieldScan(qs, spans).highlight)
    ensures WonTokensHighlighted(qs, spans, FieldScan(qs, spans).highlight)
    decreases |spans|
  {
    if |spans| > 0 {
      var pre := spans[..|spans| - 1];
      FieldScanSound(qs, pre);
      FieldScanRebuilds(qs, pre);
      FieldStepSound(qs, pre, spans, FieldScan(qs, pre));
    }
  }

  /** One step keeps every matched span at its token, and gives the last
      token its matched span when some query token wins it. */
  lemma FieldStepSound(qs: seq<string>, pre: seq<Token>, spans: seq<Token>, st: FieldState)
    requires |spans| > 0 && pre == spans[..|spans| - 1]
    requires MatchedSpansSound(qs, pre, st.highlight) && WonTokensHighlighted(qs, pre, st.highlight)
    requires HighlightText(st.highlight) + st.currentText == Joined(pre)
    ensures MatchedSpansSound(qs, spans, FieldStep(qs, st, spans[|spans| - 1]).highlight)
    ensures WonTokensHighlighted(qs, spans, FieldStep(qs, st, spans[|spans| - 1]).highlight)
  {
    var span := spans[|spans| - 1];
    var hl := st.highlight;
    var hl2 := FieldStep(qs, st, span).highlight;
    if !span.isToken || FirstMatch(qs, span.text).None? {
      assert hl == hl2[..|hl|];
      LiftSound(qs, pre, spans, hl, hl2);
    } else {
      var token := qs[FirstMatch(qs, span.text).value];
      var flushed := if st.currentText != [] then [HighlightItem(st.currentText, false)] else [];
      var m := span.text[..|token|];
      var rest := span.text[|token|..];
      var base := hl + flushed;
      assert hl2 == base + [HighlightItem(m, true), HighlightItem(rest, false)];
      assert WonBy(qs, span.text, Upper(m)) by {
        assert token <= Upper(span.text);
        assert Upper(m) == Upper(span.text)[..|token|];
      }
      assert m + rest == span.text;
      assert HighlightText(base) == Joined(pre) by {
        if st.currentText != [] {
          UnmatchedRebuilds(hl, st.currentText);
        } else {
          assert base == hl;
        }
      }
      assert MatchedSpansSound(qs, pre, base) && WonTokensHighlighted(qs, pre, base) by {
        assert pre[..|pre|] == pre && hl == base[..|hl|];
        LiftSound(qs, pre, pre, hl, base);
      }
      AppendMatchSound(qs, pre, spans, base, m, rest);
    }
  }

  /** Appending the matched prefix and the rest of the last token, at the
      position where that token starts, keeps the highlight sound and
      highlights that token. */
  lemma AppendMatchSound(qs: seq<string>, pre: seq<Token>, spans: seq<Token>, base: seq<HighlightItem>, m: string, rest: string)
    requires |spans| > 0 && pre == spans[..|spans| - 1]
    requires MatchedSpansSound(qs, pre, base) && WonTokensHighlighted(qs, pre, base)
    requires HighlightText(base) == Joined(pre)
    requires spans[|spans| - 1].isToken && m + rest == spans[|spans| - 1].text
    requires WonBy(qs, spans[|spans| - 1].text, Upper(m))
    ensures var hl2 := base + [HighlightItem(m, true), HighlightItem(rest, false)];
      MatchedSpansSound(qs, spans, hl2) && WonTokensHighlighted(qs, spans, hl2)
  {
    var n := |spans| - 1;
    var hl2 := base + [HighlightItem(m, true), HighlightItem(rest, false)];
    var p := |base|;
    assert IsTokenMatch(qs, spans, hl2, p, n) by {
      assert hl2[..p] == base;
    }
    assert base == hl2[..p];
    forall q | 0 <= q < |hl2| && IsMatchedAt(hl2, q)
      ensures exists j :: 0 <= j < |spans| && IsTokenMatch(qs, spans, hl2, q, j)
    {
      if q != p {
        assert q < |base| && hl2[q] == base[q];
        assert IsMatchedAt(base, q);
        var j :| 0 <= j < |pre| && IsTokenMatch(qs, pre, base, q, j);
        LiftMatch(qs, pre, spans, base, hl2, q, j);
      }
    }
    forall j | 0 <= j < |spans| && spans[j].isToken && FirstMatch(qs, spans[j].text).Some?
      ensures exists q :: 0 <= q < |hl2| && IsTokenMatch(qs, spans, hl2, q, j)
    {
      if j < n {
        assert spans[j] == pre[j];
        var q :| 0 <= q < |base| && IsTokenMatch(qs, pre, base, q, j);
        LiftMatch(qs, pre, spans, base, hl2, q, j);
      }
    }
  }

  // ---------------------------------------------------------------------
  // Winners: the query tokens that win the text's tokens, in text order

  predicate InBounds(qs: seq<string>, ws: seq<nat>) {
    forall k :: 0 <= k < |ws| ==> ws[k] < |qs|
  }

  /** The position in `qs` of the winning query token of each token of the
      text that some query token matches, in text order. */
  function Winners(qs: seq<string>, spans: seq<Token>): (ws: seq<nat>)
    ensures InBounds(qs, ws)
    ensures |ws| <= |spans|
    decreases |spans|
  {
    if |spans| == 0 then []
    else
      var ws := Winners(qs, spans[..|spans| - 1]);
      var t := spans[|spans| - 1];
      if t.isToken && FirstMatch(qs, t.text).Some? then ws + [FirstMatch(qs, t.text).value] else ws
  }

  function Pick(qs: seq<string>, ws: seq<nat>): seq<string>
    requires InBounds(qs, ws)
  {
    seq(|ws|, k requires 0 <= k < |ws| => qs[ws[k]])
  }

  /** The winning query tokens, in text order. */
  function WinnerTokens(qs: seq<string>, spans: seq<Token>): seq<string> {
    Pick(qs, Winners(qs, spans))
  }

  /** The query token of the last winner, or "" before any. */
  function LastWon(qs: seq<string>, ws: seq<nat>): string
    requires InBounds(qs, ws)
  {
    if |ws| == 0 then [] else qs[ws[|ws| - 1]]
  }

  /** Each winner's predecessor in the query is the previous winner's query
      token ("" for the first winner, matching only the first query token). */
  predicate Chain(qs: seq<string>, ws: seq<nat>)
    requires InBounds(qs, ws)
    decreases |ws|
  {
    |ws| == 0
    || (Chain(qs, ws[..|ws| - 1]) && Prev(qs, ws[|ws| - 1]) == LastWon(qs, ws[..|ws| - 1]))
  }

  /** The scan's matched set, last matched token and same-order flag are
      those of the winner sequence. */
  lemma {:induction false} FieldScanTracksWinners(qs: seq<string>, spans: seq<Token>)
    ensures var st := FieldScan(qs, spans);
      var ws := Winners(qs, spans);
      && st.queryTokensMatched == ElemSet(Pick(qs, ws))
      && st.lastMatchedToken == LastWon(qs, ws)
      && st.isSameOrder == Chain(qs, ws)
    decreases |spans|
  {
    if |spans| > 0 {
      var p := spans[..|spans| - 1];
      var t := spans[|spans| - 1];
      FieldScanTracksWinners(qs, p);
      var ws := Winners(qs, p);
      if t.isToken && FirstMatch(qs, t.text).Some? {
        WinnerStep(qs, ws, FirstMatch(qs, t.text).value);
      }
    }
  }

  /** One more winner `i` adds its query token to the picked ones, becomes
      the last one won, and extends the chain when its predecessor in the
      query was the last one won. */
  lemma WinnerStep(qs: seq<string>, ws: seq<nat>, i: nat)
    requires InBounds(qs, ws) && i < |qs|
    ensures InBounds(qs, ws + [i])
    ensures ElemSet(Pick(qs, ws + [i])) == ElemSet(Pick(qs, ws)) + {qs[i]}
    ensures Pick(qs, ws + [i]) == Pick(qs, ws) + [qs[i]]
    ensures LastWon(qs, ws + [i]) == qs[i]
    ensures Chain(qs, ws + [i]) == (Chain(qs, ws) && Prev(qs, i) == LastWon(qs, ws))
  {
    var ws' := ws + [i];
    assert ws'[..|ws|] == ws;
    assert Pick(qs, ws') == Pick(qs, ws) + [qs[i]];
  }

  /** The matched spans, upper-cased, are exactly the winning query tokens
      in text order: every token a query token wins gets its matched prefix
      span, and nothing else is marked matched. */
  lemma {:induction false} FieldScanHighlightsWinners(qs: seq<string>, spans: seq<Token>)
    ensures MatchedTexts(FieldScan(qs, spans).highlight) == WinnerTokens(qs, spans)
    decreases |spans|
  {
    if |spans| > 0 {
      var p := spans[..|spans| - 1];
      var t := spans[|spans| - 1];
      FieldScanHighlightsWinners(qs, p);
      var st := FieldScan(qs, p);
      var ws := Winners(qs, p);
      if t.isToken {
        match FirstMatch(qs, t.text)
        case None =>
          var h := HighlightItem(st.currentText + t.text, false);
          MatchedTextsConcat(st.highlight, [h]);
          assert [h][..0] == [];
        case Some(i) =>
          var token := qs[i];
          var flushed := if st.currentText != [] then [HighlightItem(st.currentText, false)] else [];
          var pair := [HighlightItem(t.text[..|token|], true), HighlightItem(t.text[|token|..], false)];
          assert Upper(t.text[..|token|]) == token by {
            assert token <= Upper(t.text);
            assert Upper(t.text[..|token|]) == Upper(t.text)[..|token|];
          }
          assert MatchedTexts(flushed) == [] by {
            if flushed != [] {
              assert flushed[..0] == [];
            }
          }
          assert MatchedTexts(pair) == [token] by {
            assert pair[..1][..0] == [];
            assert pair[..1] == [pair[0]];
          }
          MatchedTextsConcat(st.highlight, flushed);
          MatchedTextsConcat(st.highlight + flushed, pair);
          WinnerStep(qs, ws, i);
      }
    }
  }

  /** Query token `w` is the first match of some token of the text. */
  predicate WinsSomeToken(qs: seq<string>, spans: seq<Token>, w: nat) {
    exists j :: 0 <= j < |spans| && spans[j].isToken && FirstMatch(qs, spans[j].text) == Some(w)
  }

  /** Every winner is the first matching query token of a token of the text. */
  lemma {:induction false} WinnersFromTokens(qs: seq<string>, spans: seq<Token>)
    ensures forall k :: 0 <= k < |Winners(qs, spans)| ==> WinsSomeToken(qs, spans, Winners(qs, spans)[k])
    decreases |spans|
  {
    if |spans| > 0 {
      var p := spans[..|spans| - 1];
      var t := spans[|spans| - 1];
      WinnersFromTokens(qs, p);
      var ws := Winners(qs, p);
      forall k | 0 <= k < |ws| ensures WinsSomeToken(qs, spans, ws[k]) {
        var j :| 0 <= j < |p| && p[j].isToken && FirstMatch(qs, p[j].text) == Some(ws[k]);
        assert spans[j] == p[j];
      }
      if t.isToken && FirstMatch(qs, t.text).Some? {
        assert WinsSomeToken(qs, spans, FirstMatch(qs, t.text).value) by {
          assert spans[|spans| - 1] == t;
        }
      }
    }
  }

  // ---------------------------------------------------------------------
  // What a completed text means

  /** A text is complete exactly when the query tokens are pairwise distinct
      and each of them wins some token of the text. */
  lemma CompleteIff(spans: seq<Token>, qs: seq<string>)
    ensures IsComplete(ScanText(spans, qs), qs)
        <==> Distinct(qs) && forall q :: q in qs ==> q in WinnerTokens(qs, spans)
  {
    var o := ScanText(spans, qs);
    var w := WinnerTokens(qs, spans);
    FieldScanTracksWinners(qs, spans);
    assert o.queryTokensMatched == ElemSet(w);
    DistinctCard(qs);
    if IsComplete(o, qs) {
      SubsetSameCard(o.queryTokensMatched, ElemSet(qs));
      forall q | q in qs ensures q in w {
        assert q in ElemSet(qs);
      }
    }
    if Distinct(qs) && forall q :: q in qs ==> q in w {
      assert ElemSet(qs) <= ElemSet(w);
      assert o.queryTokensMatched == ElemSet(qs);
    }
  }

  /** A query with a repeated token never completes. */
  lemma RepeatedQueryTokenNeverCompletes(spans: seq<Token>, qs: seq<string>, i: int, j: int)
    requires 0 <= i < j < |qs| && qs[i] == qs[j]
    ensures !IsComplete(ScanText(spans, qs), qs)
  {
    CompleteIff(spans, qs);
  }

  /** In a completed text every query token is a prefix of some upper-cased
      token of the text. */
  lemma CompleteMeansPrefixes(spans: seq<Token>, qs: seq<string>)
    requires IsComplete(ScanText(spans, qs), qs)
    ensures forall q :: q in qs ==>
      exists j :: 0 <= j < |spans| && spans[j].isToken && q <= Upper(spans[j].text)
  {
    CompleteIff(spans, qs);
    WinnersFromTokens(qs, spans);
    var ws := Winners(qs, spans);
    var w := WinnerTokens(qs, spans);
    forall q | q in qs
      ensures exists j :: 0 <= j < |spans| && spans[j].isToken && q <= Upper(spans[j].text)
    {
      assert q in w;
      var k :| 0 <= k < |w| && w[k] == q;
      assert WinsSomeToken(qs, spans, ws[k]);
      var j :| 0 <= j < |spans| && spans[j].isToken && FirstMatch(qs, spans[j].text) == Some(ws[k]);
      assert q == qs[ws[k]];
    }
  }

  /** For pairwise distinct, non-empty query tokens, the winners form a chain
      exactly when the k-th winner is the k-th query token. */
  lemma {:induction false} ChainIota(qs: seq<string>, ws: seq<nat>)
    requires Distinct(qs)
    requires forall i :: 0 <= i < |qs| ==> qs[i] != []
    requires InBounds(qs, ws)
    ensures Chain(qs, ws) <==> forall k :: 0 <= k < |ws| ==> ws[k] == k
    decreases |ws|
  {
    if |ws| > 0 {
      var p := ws[..|ws| - 1];
      var w := ws[|ws| - 1];
      ChainIota(qs, p);
      if Chain(qs, ws) {
        assert forall k :: 0 <= k < |p| ==> p[k] == k;
        if |p| == 0 {
          assert w == 0;
        } else {
          assert LastWon(qs, p) == qs[|p| - 1];
          assert w != 0;
          assert qs[w - 1] == qs[|p| - 1];
        }
      }
      if forall k :: 0 <= k < |ws| ==> ws[k] == k {
        assert forall k :: 0 <= k < |p| ==> p[k] == k by {
          forall k | 0 <= k < |p| ensures p[k] == k {
            assert p[k] == ws[k];
          }
        }
        assert w == |p|;
      }
    }
  }

  /** Winners that run 0, 1, 2, ... and cover every query token are the
      query tokens in order. */
  lemma IotaCoveringIsQuery(qs: seq<string>, ws: seq<nat>)
    requires Distinct(qs)
    requires InBounds(qs, ws)
    requires forall k :: 0 <= k < |ws| ==> ws[k] == k
    requires forall q :: q in qs ==> q in Pick(qs, ws)
    ensures Pick(qs, ws) == qs
  {
    var w := Pick(qs, ws);
    if |qs| > 0 {
      var last := |qs| - 1;
      assert qs[last] in qs;
      var k :| 0 <= k < |w| && w[k] == qs[last];
      assert ws[k] == last;
    }
    if |ws| > 0 {
      assert ws[|ws| - 1] == |ws| - 1;
    }
  }

  /** Winners whose tokens are the query tokens in order run 0, 1, 2, ... */
  lemma QueryWinnersAreIota(qs: seq<string>, ws: seq<nat>)
    requires Distinct(qs)
    requires InBounds(qs, ws)
    requires Pick(qs, ws) == qs
    ensures forall k :: 0 <= k < |ws| ==> ws[k] == k
  {
    forall k | 0 <= k < |ws| ensures ws[k] == k {
      assert Pick(qs, ws)[k] == qs[ws[k]];
    }
  }

  /** A completed text (with non-empty query tokens, as `QueryTokens`
      yields) keeps its same-order flag exactly when its winners, in text
      order, are the query tokens in query order. */
  lemma SameOrderIff(spans: seq<Token>, qs: seq<string>)
    requires forall i :: 0 <= i < |qs| ==> qs[i] != []
    requires IsComplete(ScanText(spans, qs), qs)
    ensures ScanText(spans, qs).isSameOrder <==> WinnerTokens(qs, spans) == qs
  {
    CompleteIff(spans, qs);
    FieldScanTracksWinners(qs, spans);
    var ws := Winners(qs, spans);
    ChainIota(qs, ws);
    if Chain(qs, ws) {
      IotaCoveringIsQuery(qs, ws);
    }
    if WinnerTokens(qs, spans) == qs {
      QueryWinnersAreIota(qs, ws);
    }
  }

  /** Once the same-order flag drops it stays down for the rest of the text. */
  lemma {:induction false} SameOrderLatches(qs: seq<string>, spans: seq<Token>, n: nat)
    requires n <= |spans|
    requires !FieldScan(qs, spans[..n]).isSameOrder
    ensures !FieldScan(qs, spans).isSameOrder
    decreases |spans|
  {
    if n < |spans| {
      var p := spans[..|spans| - 1];
      assert p[..n] == spans[..n];
      SameOrderLatches(qs, p, n);
    } else {
      assert spans[..n] == spans;
    }
  }

  lemma {:induction false} NoWinnersForEmptyQuery(spans: seq<Token>)
    ensures Winners([], spans) == []
    decreases |spans|
  {
    if |spans| > 0 {
      NoWinnersForEmptyQuery(spans[..|spans| - 1]);
    }
  }

  /** With no query tokens every text completes, in order, with no span
      highlighted, and the spans spell the text. */
  lemma EmptyQueryMatchesEverything(spans: seq<Token>)
    ensures var o := ScanText(spans, []);
      && IsComplete(o, [])
      && o.isSameOrder
      && HighlightText(o.highlight) == Joined(spans)
      && forall p :: 0 <= p < |o.highlight| ==> !o.highlight[p].isMatched
  {
    FieldScanTracksWinners([], spans);
    NoWinnersForEmptyQuery(spans);
    var o := ScanText(spans, []);
    assert ElemSet<string>([]) == {};
    NothingMatchedWithoutQuery(spans, o.highlight);
  }

  lemma NothingMatchedWithoutQuery(spans: seq<Token>, hl: seq<HighlightItem>)
    requires MatchedSpansSound([], spans, hl)
    ensures forall p :: 0 <= p < |hl| ==> !hl[p].isMatched
  {
    assert forall t, q :: !WonBy([], t, q);
    forall p | 0 <= p < |hl| ensures !hl[p].isMatched {
      assert forall j :: !IsTokenMatch([], spans, hl, p, j);
      assert !IsMatchedAt(hl, p);
    }
  }

  /** Only the first matching query token is tried: "HE" wins "hello" and
      "HEL" is never matched, although both are prefixes of "HELLO". */
  lemma FirstMatchShadowsLaterTokens()
    ensures var qs := ["HE", "HEL"];
      var spans := [Token("hello", true)];
      && "HEL" <= Upper("hello")
      && !IsComplete(ScanText(spans, qs), qs)
  {
    var qs := ["HE", "HEL"];
    var spans := [Token("hello", true)];
    assert Upper("hello") == "HELLO";
    assert FirstMatch(qs, "hello") == Some(0);
    assert spans[..0] == [];
    assert Winners(qs, spans) == [0];
    assert WinnerTokens(qs, spans) == ["HE"];
    CompleteIff(spans, qs);
    assert "HEL" in qs;
  }

  /** A token the query token covers entirely still gets an empty unmatched
      remainder span after its matched span. */
  lemma FullTokenMatchKeepsEmptyRemainder()
    ensures ScanText([Token("hel", true)], ["HEL"]).highlight
         == [HighlightItem("hel", true), HighlightItem("", false)]
  {
    var spans := [Token("hel", true)];
    assert Upper("hel") == "HEL";
    assert FirstMatch(["HEL"], "hel") == Some(0);
    assert spans[..0] == [];
    assert "hel"[..3] == "hel" && "hel"[3..] == "";
    assert FieldScan(["HEL"], spans)
        == FieldState([HighlightItem("hel", true), HighlightItem("", false)], {"HEL"}, [], "HEL", true);
  }
}

=== FILE: multi_field_filter.dfy ===
/** The multi-field engine: every field of an item is matched on its own, an
    item is returned when some field matches, its highlight takes the shape
    of its text, and the results are ranked by the same-order policy. */
module MultiFieldFilter {
  import opened Common
  import opened Tokenizer
  import opened Matching

  /** The shape of an item's text: one string, a list, or a keyed record. */
  datatype TextType = SingleText | ArrayText | KeyedText

  /** One field of an indexed item: its key and its tokenized text. */
  datatype Field = Field(key: string, spans: seq<Token>)

  /** An indexed item: its fields in key order and the shape of its text. */
  datatype IndexedItem<T> = IndexedItem(item: T, textTokenized: seq<Field>, textType: TextType)

  /** The highlight of a matched item, in the shape of its text. */
  datatype HighlightResult =
    | Flat(spans: seq<HighlightItem>)
    | PerPosition(lists: seq<seq<HighlightItem>>)
    | PerKey(entries: seq<(string, seq<HighlightItem>)>)

  datatype MatchedItem<T> = MatchedItem(item: T, highlight: HighlightResult, isSameOrder: bool)

  /** What `doFilterItemTokenizedText` yields for one field. */
  datatype FieldResult = FieldResult(isMatched: bool, highlight: seq<HighlightItem>, isSameOrder: bool)

  /** `doFilterItemTokenizedText`: a field matches exactly when the query
      tokens are distinct and each wins some token of the field. An
      unmatched field gives back its whole text as one unmatched span and is
      never in order. Either way the spans spell the field's text. */
  function FilterField(spans: seq<Token>, qs: seq<string>): (r: FieldResult)
    ensures HighlightText(r.highlight) == Joined(spans)
    ensures r.isMatched <==> Distinct(qs) && forall q :: q in qs ==> q in WinnerTokens(qs, spans)
    ensures !r.isMatched ==> r.highlight == [HighlightItem(Joined(spans), false)] && !r.isSameOrder
  {
    var o := ScanText(spans, qs);
    CompleteIff(spans, qs);
    if IsComplete(o, qs) then
      FieldResult(true, o.highlight, o.isSameOrder)
    else
      var whole := [HighlightItem(Joined(spans), false)];
      assert HighlightText(whole) == HighlightText([]) + Joined(spans);
      FieldResult(false, whole, false)
  }

  /** In a matched field, each matched span sits at the start of the token a
      query token wins and is that token's prefix, and every won token has
      one; upper-cased, the matched spans are the winning query tokens in
      text order, so every query token is highlighted; and (with non-empty
      query tokens) it is in order exactly when its winners are the query
      tokens in order. */
  lemma MatchedFieldMeaning(spans: seq<Token>, qs: seq<string>)
    requires FilterField(spans, qs).isMatched
    ensures MatchedSpansSound(qs, spans, FilterField(spans, qs).highlight)
    ensures WonTokensHighlighted(qs, spans, FilterField(spans, qs).highlight)
    ensures MatchedTexts(FilterField(spans, qs).highlight) == WinnerTokens(qs, spans)
    ensures forall q :: q in qs ==> q in MatchedTexts(FilterField(spans, qs).highlight)
    ensures NonEmptyTokens(qs) ==> (FilterField(spans, qs).isSameOrder <==> WinnerTokens(qs, spans) == qs)
  {
    CompleteIff(spans, qs);
    if NonEmptyTokens(qs) {
      SameOrderIff(spans, qs);
    }
  }

  // ---------------------------------------------------------------------
  // One item

  /** The loop over an item's fields: whether any field matched, whether any
      was in order, and each field's highlight under its key. */
  datatype FieldsAcc = FieldsAcc(isAnyMatched: bool, isAnySameOrder: bool, highlight: seq<(string, seq<HighlightItem>)>)

  predicate FieldMatches(f: Field, qs: seq<string>) {
    FilterField(f.spans, qs).isMatched
  }

  /** The field matches and keeps the query order. */
  predicate FieldInOrder(f: Field, qs: seq<string>) {
    FilterField(f.spans, qs).isMatched && FilterField(f.spans, qs).isSameOrder
  }

  predicate SomeFieldMatches(fields: seq<Field>, qs: seq<string>) {
    Any(f => FieldMatches(f, qs), fields)
  }

  predicate SomeFieldInOrder(fields: seq<Field>, qs: seq<string>) {
    Any(f => FieldInOrder(f, qs), fields)
  }

  /** The field loop of `doFilterItem`, over the fields in key order. The two
      flags are "some field matched" and "some matched field kept the query
      order" (an unmatched field is never in order), and under each field's
      key sits that field's own `doFilterItemTokenizedText` highlight. */
  function FilterFields(fields: seq<Field>, qs: seq<string>): (r: FieldsAcc)
    ensures r.isAnyMatched <==> SomeFieldMatches(fields, qs)
    ensures r.isAnySameOrder <==> SomeFieldInOrder(fields, qs)
    ensures PerFieldHighlight(r.highlight, fields, qs)
    ensures KeyedSpells(r.highlight, fields)
    decreases |fields|
  {
    if |fields| == 0 then FieldsAcc(false, false, [])
    else
      var p := fields[..|fields| - 1];
      var f := fields[|fields| - 1];
      var acc := FilterFields(p, qs);
      var res := FilterField(f.spans, qs);
      FieldFlagsExtend(fields, qs);
      assert res.isSameOrder == FieldInOrder(f, qs);
      KeyedSpellsAppend(acc.highlight, fields, res.highlight);
      PerFieldHighlightAppend(acc.highlight, fields, qs);
      FieldsAcc(acc.isAnyMatched || res.isMatched, acc.isAnySameOrder || res.isSameOrder, acc.highlight + [(f.key, res.highlight)])
  }

  /** Entry i is field i's key with the highlight `FilterField` gives that
      field on its own. */
  predicate PerFieldHighlight(hs: seq<(string, seq<HighlightItem>)>, fields: seq<Field>, qs: seq<string>) {
    && |hs| == |fields|
    && forall i :: 0 <= i < |fields| ==> hs[i] == (fields[i].key, FilterField(fields[i].spans, qs).highlight)
  }

  lemma PerFieldHighlightAppend(hs: seq<(string, seq<HighlightItem>)>, fields: seq<Field>, qs: seq<string>)
    requires |fields| > 0
    requires PerFieldHighlight(hs, fields[..|fields| - 1], qs)
    ensures var f := fields[|fields| - 1];
      PerFieldHighlight(hs + [(f.key, FilterField(f.spans, qs).highlight)], fields, qs)
  {
    var p := fields[..|fields| - 1];
    var f := fields[|fields| - 1];
    var r := hs + [(f.key, FilterField(f.spans, qs).highlight)];
    forall i | 0 <= i < |fields|
      ensures r[i] == (fields[i].key, FilterField(fields[i].spans, qs).highlight)
    {
      if i < |p| {
        assert r[i] == hs[i] && fields[i] == p[i];
      }
    }
  }

  /** Each field's highlight sits under its key and spells its text. */
  predicate KeyedSpells(hs: seq<(string, seq<HighlightItem>)>, fields: seq<Field>) {
    && |hs| == |fields|
    && forall i :: 0 <= i < |fields| ==>
      hs[i].0 == fields[i].key && HighlightText(hs[i].1) == Joined(fields[i].spans)
  }

  lemma KeyedSpellsAppend(hs: seq<(string, seq<HighlightItem>)>, fields: seq<Field>, h: seq<HighlightItem>)
    requires |fields| > 0
    requires KeyedSpells(hs, fields[..|fields| - 1])
    requires HighlightText(h) == Joined(fields[|fields| - 1].spans)
    ensures KeyedSpells(hs + [(fields[|fields| - 1].key, h)], fields)
  {
    var p := fields[..|fields| - 1];
    assert forall i :: 0 <= i < |p| ==> fields[i] == p[i];
  }

  lemma FieldFlagsExtend(fields: seq<Field>, qs: seq<string>)
    requires |fields| > 0
    ensures var p := fields[..|fields| - 1];
      var f := fields[|fields| - 1];
      && (SomeFieldMatches(fields, qs) <==> SomeFieldMatches(p, qs) || FieldMatches(f, qs))
      && (SomeFieldInOrder(fields, qs) <==> SomeFieldInOrder(p, qs) || FieldInOrder(f, qs))
  {
    AnySnoc(f => FieldMatches(f, qs), fields);
    AnySnoc(f => FieldInOrder(f, qs), fields);
  }

  /** `getHighlightResult`: the first field's spans for a single text, the
      per-field spans in key order for a list, and the key-to-spans record
      otherwise. The result takes the shape of the text, and its i-th span
      list is the i-th per-key span list, under the same key when keyed; so
      whatever fields the per-key highlight spells, the result spells them in
      that shape. A single text always has its one field. */
  function GetHighlightResult(highlight: seq<(string, seq<HighlightItem>)>, textType: TextType): (r: HighlightResult)
    requires textType == SingleText ==> |highlight| > 0
    ensures r.Flat? <==> textType == SingleText
    ensures r.PerPosition? <==> textType == ArrayText
    ensures forall fields :: KeyedSpells(highlight, fields) ==> Spells(r, fields, textType)
    ensures FieldCount(r) == if textType == SingleText then 1 else |highlight|
    ensures forall i :: 0 <= i < FieldCount(r) ==> FieldSpans(r, i) == highlight[i].1
    ensures r.PerKey? ==> forall i :: 0 <= i < |r.entries| ==> r.entries[i].0 == highlight[i].0
  {
    match textType
    case SingleText => Flat(highlight[0].1)
    case ArrayText => PerPosition(seq(|highlight|, i requires 0 <= i < |highlight| => highlight[i].1))
    case KeyedText => PerKey(highlight)
  }

  /** How many fields' span lists a highlight result holds. */
  function FieldCount(hr: HighlightResult): nat {
    match hr
    case Flat(_) => 1
    case PerPosition(lists) => |lists|
    case PerKey(entries) => |entries|
  }

  /** The span list a highlight result holds for its i-th field, whatever its
      shape. */
  function FieldSpans(hr: HighlightResult, i: nat): seq<HighlightItem>
    requires i < FieldCount(hr)
  {
    match hr
    case Flat(spans) => spans
    case PerPosition(lists) => lists[i]
    case PerKey(entries) => entries[i].1
  }

  /** The highlight spells the fields' texts, field by field, in the shape
      `textType`. */
  predicate Spells(hr: HighlightResult, fields: seq<Field>, textType: TextType) {
    match textType
    case SingleText => hr.Flat? && |fields| > 0 && HighlightText(hr.spans) == Joined(fields[0].spans)
    case ArrayText =>
      && hr.PerPosition? && |hr.lists| == |fields|
      && forall i :: 0 <= i < |fields| ==> HighlightText(hr.lists[i]) == Joined(fields[i].spans)
    case KeyedText => hr.PerKey? && KeyedSpells(hr.entries, fields)
  }

  /** The fields come from the keys of one record, so no key repeats. */
  predicate DistinctKeys(fields: seq<Field>) {
    forall i, j :: 0 <= i < j < |fields| ==> fields[i].key != fields[j].key
  }

  /** The highlight spells the item's text, field by field, in its shape. */
  predicate SpellsText<T>(hr: HighlightResult, it: IndexedItem<T>) {
    Spells(hr, it.textTokenized, it.textType)
  }

  /** `doFilterItem`: an item is returned exactly when some field on its own
      matches every query token; it is in order exactly when some matched
      field kept the query order; and its highlight spells its text in the
      shape of that text. */
  function DoFilterItem<T>(it: IndexedItem<T>, qs: seq<string>): (r: Option<MatchedItem<T>>)
    ensures r.Some? <==> SomeFieldMatches(it.textTokenized, qs)
    ensures r.Some? ==> r.value.item == it.item
    ensures r.Some? ==> (r.value.isSameOrder <==> SomeFieldInOrder(it.textTokenized, qs))
  {
    var acc := FilterFields(it.textTokenized, qs);
    if acc.isAnyMatched then
      Some(MatchedItem(it.item, GetHighlightResult(acc.highlight, it.textType), acc.isAnySameOrder))
    else
      None
  }

  /** A returned item's highlight spells its text in the shape of that text. */
  lemma MatchedItemSpellsText<T>(it: IndexedItem<T>, qs: seq<string>)
    requires DoFilterItem(it, qs).Some?
    ensures SpellsText(DoFilterItem(it, qs).value.highlight, it)
  {
    var acc := FilterFields(it.textTokenized, qs);
    assert KeyedSpells(acc.highlight, it.textTokenized);
  }

  /** What a returned item's highlight marks, field by field: it holds one
      span list per field (only the first for a single text), in field
      order, each under its field's key when keyed. A field that matched on
      its own has sound spans, with every won token highlighted at its own
      position, and its matched parts, upper-cased, are its winning query
      tokens in text order; any other field is its whole text as one
      unmatched span. */
  lemma MatchedItemMeaning<T>(it: IndexedItem<T>, qs: seq<string>)
    requires DoFilterItem(it, qs).Some?
    ensures var hr := DoFilterItem(it, qs).value.highlight;
      && FieldCount(hr) == (if it.textType == SingleText then 1 else |it.textTokenized|)
      && FieldCount(hr) <= |it.textTokenized|
      && (hr.PerKey? ==> forall i :: 0 <= i < |hr.entries| ==> hr.entries[i].0 == it.textTokenized[i].key)
    ensures var hr := DoFilterItem(it, qs).value.highlight;
      forall i :: 0 <= i < FieldCount(hr) && i < |it.textTokenized| ==>
        var f := it.textTokenized[i];
        && HighlightText(FieldSpans(hr, i)) == Joined(f.spans)
        && (FieldMatches(f, qs) ==>
              && MatchedSpansSound(qs, f.spans, FieldSpans(hr, i))
              && WonTokensHighlighted(qs, f.spans, FieldSpans(hr, i))
              && MatchedTexts(FieldSpans(hr, i)) == WinnerTokens(qs, f.spans))
        && (!FieldMatches(f, qs) ==> FieldSpans(hr, i) == [HighlightItem(Joined(f.spans), false)])
  {
    var fields := it.textTokenized;
    var acc := FilterFields(fields, qs);
    var hr := DoFilterItem(it, qs).value.highlight;
    assert hr == GetHighlightResult(acc.highlight, it.textType);
    assert PerFieldHighlight(acc.highlight, fields, qs);
    forall i | 0 <= i < FieldCount(hr) && i < |fields| && FieldMatches(fields[i], qs)
      ensures MatchedSpansSound(qs, fields[i].spans, FieldSpans(hr, i))
      ensures WonTokensHighlighted(qs, fields[i].spans, FieldSpans(hr, i))
      ensures MatchedTexts(FieldSpans(hr, i)) == WinnerTokens(qs, fields[i].spans)
    {
      assert FieldSpans(hr, i) == FilterField(fields[i].spans, qs).highlight;
      MatchedFieldMeaning(fields[i].spans, qs);
    }
  }

  /** With distinct keys, the entry a keyed highlight holds under a field's
      key is that field's own highlight, and no other entry carries the key. */
  lemma KeyedEntryIsFieldHighlight<T>(it: IndexedItem<T>, qs: seq<string>, j: nat)
    requires DoFilterItem(it, qs).Some? && it.textType == KeyedText
    requires DistinctKeys(it.textTokenized) && j < |it.textTokenized|
    ensures var hr := DoFilterItem(it, qs).value.highlight;
      forall i :: 0 <= i < |hr.entries| && hr.entries[i].0 == it.textTokenized[j].key ==>
        i == j && hr.entries[i].1 == FilterField(it.textTokenized[j].spans, qs).highlight
  {
    var fields := it.textTokenized;
    var acc := FilterFields(fields, qs);
    var hr := DoFilterItem(it, qs).value.highlight;
    assert hr == PerKey(acc.highlight);
    assert PerFieldHighlight(acc.highlight, fields, qs);
    forall i | 0 <= i < |hr.entries| && hr.entries[i].0 == fields[j].key
      ensures i == j && hr.entries[i].1 == FilterField(fields[j].spans, qs).highlight
    {
      assert hr.entries[i] == (fields[i].key, FilterField(fields[i].spans, qs).highlight);
      assert fields[i].key == fields[j].key;
    }
  }

  /** There is no union across fields: each query token prefixes a token of
      some field, yet no single field holds them all, so the item is
      dropped. */
  lemma NoUnionAcrossFields()
    ensures var it := IndexedItem(0, [Field("key", [Token("hello", true)]), Field("description", [Token("again", true)])], KeyedText);
      var qs := ["HEL", "AGAIN"];
      && "HEL" <= Upper("hello") && "AGAIN" <= Upper("again")
      && DoFilterItem(it, qs) == None
  {
    var qs := ["HEL", "AGAIN"];
    var fields := [Field("key", [Token("hello", true)]), Field("description", [Token("again", true)])];
    assert Upper("hello") == "HELLO" && Upper("again") == "AGAIN";
    assert FirstMatch(qs, "hello") == Some(0);
    assert !("HEL" <= "AGAIN") by {
      assert "AGAIN"[0] != "HEL"[0];
    }
    assert qs[1..] == ["AGAIN"];
    assert FirstMatch(qs[1..], "again") == Some(0);
    assert FirstMatch(qs, "again") == Some(1);
    OneTokenFieldMisses(qs, "hello", 0, "AGAIN");
    OneTokenFieldMisses(qs, "again", 1, "HEL");
    assert !SomeFieldMatches(fields, qs) by {
      forall i | 0 <= i < |fields| ensures !FieldMatches(fields[i], qs) {
      }
    }
  }

  /** A field of one token is won by a single query token, so with a second,
      different query token it cannot match. */
  lemma OneTokenFieldMisses(qs: seq<string>, text: string, w: nat, other: string)
    requires FirstMatch(qs, text) == Some(w)
    requires other in qs && other != qs[w]
    ensures !FilterField([Token(text, true)], qs).isMatched
  {
    var spans := [Token(text, true)];
    assert spans[..0] == [];
    assert Winners(qs, spans) == [w];
    assert WinnerTokens(qs, spans) == [qs[w]];
  }

  // ---------------------------------------------------------------------
  // Ranking

  /** The filter options; a missing option reads as false. */
  datatype FilterOptions = FilterOptions(isSameOrderFirst: bool, isSameOrderStrict: bool)

  /** Every matched item, in the order of the items. */
  function Matches<T>(items: seq<IndexedItem<T>>, qs: seq<string>): seq<MatchedItem<T>> {
    Somes(Map(it => DoFilterItem(it, qs), items))
  }

  /** The matched items whose same-order flag is `inOrder`, order kept. */
  function WithOrder<T>(ms: seq<MatchedItem<T>>, inOrder: bool): (r: seq<MatchedItem<T>>)
    ensures forall i :: 0 <= i < |r| ==> r[i].isSameOrder == inOrder
    decreases |ms|
  {
    if |ms| == 0 then []
    else WithOrder(ms[..|ms| - 1], inOrder) + (if ms[|ms| - 1].isSameOrder == inOrder then [ms[|ms| - 1]] else [])
  }

  /** The ranking policy over the matches in item order: only the in-order
      ones when strict; the in-order ones first, then the rest, when
      same-order-first; otherwise all, as they come. */
  function Ranked<T>(ms: seq<MatchedItem<T>>, opts: FilterOptions): seq<MatchedItem<T>> {
    if opts.isSameOrderStrict then WithOrder(ms, true)
    else if opts.isSameOrderFirst then WithOrder(ms, true) + WithOrder(ms, false)
    else ms
  }

  /** Where one item's outcome goes (lines of the `forEach` body): an
      in-order match to the answer; another match to the answer, to the list
      appended afterwards under same-order-first, or nowhere when strict. */
  function Route<T>(answer: seq<MatchedItem<T>>, answerRandomOrder: seq<MatchedItem<T>>,
                    matched: Option<MatchedItem<T>>, opts: FilterOptions): (seq<MatchedItem<T>>, seq<MatchedItem<T>>)
  {
    match matched
    case None => (answer, answerRandomOrder)
    case Some(m) =>
      if m.isSameOrder then (answer + [m], answerRandomOrder)
      else if opts.isSameOrderStrict then (answer, answerRandomOrder)
      else if opts.isSameOrderFirst then (answer, answerRandomOrder + [m])
      else (answer + [m], answerRandomOrder)
  }

  /** The two lists after the matches `ms`, in order. */
  function Lists<T>(ms: seq<MatchedItem<T>>, opts: FilterOptions): (seq<MatchedItem<T>>, seq<MatchedItem<T>>) {
    if opts.isSameOrderStrict || opts.isSameOrderFirst then
      (WithOrder(ms, true), if opts.isSameOrderStrict then [] else WithOrder(ms, false))
    else (ms, [])
  }

  lemma RouteStep<T>(ms: seq<MatchedItem<T>>, matched: Option<MatchedItem<T>>, opts: FilterOptions)
    ensures var l := Lists(ms, opts);
      Route(l.0, l.1, matched, opts) == Lists(ms + (if matched.Some? then [matched.value] else []), opts)
  {
    if matched.Some? {
      var m := matched.value;
      var ms' := ms + [m];
      assert ms'[..|ms|] == ms;
      assert WithOrder(ms', true) == WithOrder(ms, true) + (if m.isSameOrder then [m] else []);
      assert WithOrder(ms', false) == WithOrder(ms, false) + (if !m.isSameOrder then [m] else []);
      assert ms + (if matched.Some? then [matched.value] else []) == ms';
      assert WithOrder(ms, true) + [] == WithOrder(ms, true);
      assert WithOrder(ms, false) + [] == WithOrder(ms, false);
    } else {
      assert ms + [] == ms;
    }
  }

  /** One more item through the `forEach` body extends the lists for the
      matches so far by that item's outcome. */
  lemma LoopStep<T>(items: seq<IndexedItem<T>>, qs: seq<string>, n: int, opts: FilterOptions)
    requires 0 <= n < |items|
    ensures var l := Lists(Matches(items[..n], qs), opts);
      Route(l.0, l.1, DoFilterItem(items[n], qs), opts) == Lists(Matches(items[..n + 1], qs), opts)
  {
    var matched := DoFilterItem(items[n], qs);
    MapSnoc(it => DoFilterItem(it, qs), items, n);
    SomesAppend(Map(it => DoFilterItem(it, qs), items[..n]), matched);
    RouteStep(Matches(items[..n], qs), matched, opts);
  }

  /** `doFilter` over the indexed items: the loop with its two result lists,
      the in-order list and the list appended after it. The result is the
      matches in item order, ranked by the options. */
  method DoFilter<T>(cfg: Config, query: string, items: seq<IndexedItem<T>>, opts: FilterOptions)
    returns (answer: seq<MatchedItem<T>>)
    ensures answer == Ranked(Matches(items, QueryTokens(cfg, query)), opts)
  {
    var qs := QueryTokens(cfg, query);
    answer := [];
    var answerRandomOrder: seq<MatchedItem<T>> := [];
    var n := 0;
    while n < |items|
      invariant 0 <= n <= |items|
      invariant (answer, answerRandomOrder) == Lists(Matches(items[..n], qs), opts)
    {
      var matched := DoFilterItem(items[n], qs);
      LoopStep(items, qs, n, opts);
      var routed := Route(answer, answerRandomOrder, matched, opts);
      answer, answerRandomOrder := routed.0, routed.1;
      n := n + 1;
    }
    assert items[..n] == items;
    answer := answer + answerRandomOrder;
  }

  /** With same-order-first the result reorders the matches and loses none:
      the in-order ones, then the others, each group in item order. */
  lemma {:induction false} SameOrderFirstIsPartition<T>(ms: seq<MatchedItem<T>>)
    ensures multiset(WithOrder(ms, true) + WithOrder(ms, false)) == multiset(ms)
    decreases |ms|
  {
    if |ms| > 0 {
      var p := ms[..|ms| - 1];
      SameOrderFirstIsPartition(p);
      assert ms == p + [ms[|ms| - 1]];
    }
  }

  /** A strict result holds exactly the in-order matches. */
  lemma {:induction false} StrictKeepsExactlyInOrder<T>(ms: seq<MatchedItem<T>>, m: MatchedItem<T>)
    ensures m in WithOrder(ms, true) <==> m in ms && m.isSameOrder
    decreases |ms|
  {
    if |ms| > 0 {
      var p := ms[..|ms| - 1];
      StrictKeepsExactlyInOrder(p, m);
      assert ms == p + [ms[|ms| - 1]];
    }
  }

  /** An item is among the matches exactly when `doFilterItem` returns it. */
  lemma MatchesAreDoFilterItem<T>(items: seq<IndexedItem<T>>, qs: seq<string>, m: MatchedItem<T>)
    ensures m in Matches(items, qs) <==> exists i :: 0 <= i < |items| && DoFilterItem(items[i], qs) == Some(m)
  {
    var results := Map(it => DoFilterItem(it, qs), items);
    SomesMembership(results, m);
    if exists i :: 0 <= i < |items| && DoFilterItem(items[i], qs) == Some(m) {
      var i :| 0 <= i < |items| && DoFilterItem(items[i], qs) == Some(m);
      assert results[i] == Some(m);
    }
  }
}

=== FILE: scenarios.dfy ===
/** Worked examples of the engine on concrete texts and queries. */
module Scenarios {
  import opened Common
  import opened Tokenizer
  import opened Matching

  const HelloWorld: seq<Token> := [Token("hello", true), Token(" ", false), Token("world", true)]

  /** "hel wor" against "hello world": the default tokenizer gives the
      query tokens "HEL" and "WOR" and the text spans of `HelloWorld`; both
      query tokens match, in order, and the highlight reads "[hel]lo [wor]ld". */
  lemma HelloWorldInOrder()
    ensures Tokenize(NewTokenizer(None, None), "hello world") == HelloWorld
    ensures QueryTokens(NewTokenizer(None, None), "hel wor") == ["HEL", "WOR"]
    ensures var qs := ["HEL", "WOR"];
      var o := ScanText(HelloWorld, qs);
      && IsComplete(o, qs)
      && o.isSameOrder
      && o.highlight == [HighlightItem("hel", true), HighlightItem("lo", false), HighlightItem(" ", false),
                         HighlightItem("wor", true), HighlightItem("ld", false)]
  {
    HelloWorldText();
    HelWorQuery();
    HelloWorldSpansInOrder();
  }

  lemma HelWorQuery()
    ensures QueryTokens(NewTokenizer(None, None), "hel wor") == ["HEL", "WOR"]
  {
    var a, b := "hel", "wor";
    assert LowerWord(a) by { assert a[0] == 'h' && a[1] == 'e' && a[2] == 'l'; }
    assert LowerWord(b) by { assert b[0] == 'w' && b[1] == 'o' && b[2] == 'r'; }
    assert Upper(a) == "HEL" && Upper(b) == "WOR";
    TwoWordQuery(a, b, "hel wor");
  }

  lemma HelloWorldSpansInOrder()
    ensures var qs := ["HEL", "WOR"];
      var o := ScanText(HelloWorld, qs);
      && IsComplete(o, qs)
      && o.isSameOrder
      && o.highlight == [HighlightItem("hel", true), HighlightItem("lo", false), HighlightItem(" ", false),
                         HighlightItem("wor", true), HighlightItem("ld", false)]
  {
    var qs := ["HEL", "WOR"];
    var st1 := HelloStep(qs);
    var s2 := HelloWorld[..2];
    assert s2[..1] == HelloWorld[..1] && HelloWorld[..2] == s2;
    var st2 := FieldScan(qs, s2);
    assert st2 == st1.(currentText := " ");
    assert Upper("world") == "WORLD";
    assert !("HEL" <= "WORLD") by { assert "WORLD"[0] != "HEL"[0]; }
    assert qs[1..] == ["WOR"];
    assert FirstMatch(qs, "world") == Some(1);
    assert "world"[..3] == "wor" && "world"[3..] == "ld";
    assert FieldScan(qs, HelloWorld) == FieldState(
      [HighlightItem("hel", true), HighlightItem("lo", false), HighlightItem(" ", false),
       HighlightItem("wor", true), HighlightItem("ld", false)], {"HEL", "WOR"}, [], "WOR", true);
    assert |{"HEL", "WOR"}| == 2;
  }

  /** The scan of "hello" alone when "HEL" is the first query token. */
  lemma HelloStep(qs: seq<string>) returns (st: FieldState)
    requires |qs| > 0 && qs[0] == "HEL"
    ensures st == FieldScan(qs, HelloWorld[..1])
    ensures st == FieldState([HighlightItem("hel", true), HighlightItem("lo", false)], {"HEL"}, [], "HEL", true)
  {
    assert Upper("hello") == "HELLO";
    assert FirstMatch(qs, "hello") == Some(0);
    assert "hello"[..3] == "hel" && "hello"[3..] == "lo";
    var s1 := HelloWorld[..1];
    assert s1 == [Token("hello", true)];
    assert s1[..0] == [];
    st := FieldScan(qs, s1);
  }

  /** Soundness is positional: marking "hel" inside "ahello", a token no
      query token wins, is rejected even though "hello" later in the text is
      won by "HEL" and the marked text spells the whole text. */
  lemma MisplacedMatchIsUnsound()
    ensures var spans := [Token("ahello", true), Token(" ", false), Token("hello", true)];
      var hl := [HighlightItem("a", false), HighlightItem("hel", true), HighlightItem("lo", false), HighlightItem(" hello", false)];
      && HighlightText(hl) == Joined(spans)
      && !MatchedSpansSound(["HEL"], spans, hl)
  {
    var spans := [Token("ahello", true), Token(" ", false), Token("hello", true)];
    var hl := [HighlightItem("a", false), HighlightItem("hel", true), HighlightItem("lo", false), HighlightItem(" hello", false)];
    MisplacedSpells(spans, hl);
    MisplacedUnsound(spans, hl);
  }

  lemma MisplacedSpells(spans: seq<Token>, hl: seq<HighlightItem>)
    requires spans == [Token("ahello", true), Token(" ", false), Token("hello", true)]
    requires hl == [HighlightItem("a", false), HighlightItem("hel", true), HighlightItem("lo", false), HighlightItem(" hello", false)]
    ensures HighlightText(hl) == Joined(spans)
  {
    FourItemsSpell(hl[0], hl[1], hl[2], hl[3]);
    assert hl == [hl[0], hl[1], hl[2], hl[3]];
    ThreeSpansJoin(spans[0], spans[1], spans[2]);
    assert spans == [spans[0], spans[1], spans[2]];
    assert "a" + "hel" + "lo" + " hello" == "ahello" + " " + "hello";
  }

  /** A four-item highlight spells its items' texts in order. */
  lemma FourItemsSpell(a: HighlightItem, b: HighlightItem, c: HighlightItem, d: HighlightItem)
    ensures HighlightText([a, b, c, d]) == a.text + b.text + c.text + d.text
  {
    HighlightTextConcat([a, b, c], [d]);
    HighlightTextConcat([a, b], [c]);
    HighlightTextConcat([a], [b]);
    HighlightTextOne(a);
    HighlightTextOne(b);
    HighlightTextOne(c);
    HighlightTextOne(d);
    assert [a, b, c] + [d] == [a, b, c, d];
    assert [a, b] + [c] == [a, b, c];
    assert [a] + [b] == [a, b];
  }

  /** Three spans join to their texts in order. */
  lemma ThreeSpansJoin(x: Token, y: Token, z: Token)
    ensures Joined([x, y, z]) == x.text + y.text + z.text
  {
    JoinedAppend([x, y], z);
    JoinedAppend([x], y);
    JoinedAppend([], x);
    assert [x, y] + [z] == [x, y, z];
    assert [x] + [y] == [x, y];
    assert [] + [x] == [x];
  }

  lemma MisplacedUnsound(spans: seq<Token>, hl: seq<HighlightItem>)
    requires spans == [Token("ahello", true), Token(" ", false), Token("hello", true)]
    requires hl == [HighlightItem("a", false), HighlightItem("hel", true), HighlightItem("lo", false), HighlightItem(" hello", false)]
    ensures !MatchedSpansSound(["HEL"], spans, hl)
  {
    assert HighlightText(hl[..1]) == "a" by {
      assert hl[..1][..0] == [];
    }
    assert Joined(spans[..0]) == [];
    assert Joined(spans[..1]) == "ahello" by {
      assert spans[..1][..0] == [];
    }
    assert Joined(spans[..2]) == "ahello" + " " by {
      assert spans[..2][..1] == spans[..1];
    }
    assert forall j :: 0 <= j < |spans| ==> !IsTokenMatch(["HEL"], spans, hl, 1, j);
    assert IsMatchedAt(hl, 1);
  }

  /** "wor hel" against "hello world": the default tokenizer gives the
      query tokens "WOR" and "HEL"; both match, but "HEL" comes first in the
      text while "WOR" comes first in the query, so the item is out of order. */
  lemma HelloWorldOutOfOrder()
    ensures Tokenize(NewTokenizer(None, None), "hello world") == HelloWorld
    ensures QueryTokens(NewTokenizer(None, None), "wor hel") == ["WOR", "HEL"]
    ensures var qs := ["WOR", "HEL"];
      var o := ScanText(HelloWorld, qs);
      IsComplete(o, qs) && !o.isSameOrder
  {
    HelloWorldText();
    WorHelQuery();
    HelloWorldSpansOutOfOrder();
  }

  lemma WorHelQuery()
    ensures QueryTokens(NewTokenizer(None, None), "wor hel") == ["WOR", "HEL"]
  {
    var a, b := "wor", "hel";
    assert LowerWord(a) by { assert a[0] == 'w' && a[1] == 'o' && a[2] == 'r'; }
    assert LowerWord(b) by { assert b[0] == 'h' && b[1] == 'e' && b[2] == 'l'; }
    assert Upper(a) == "WOR" && Upper(b) == "HEL";
    TwoWordQuery(a, b, "wor hel");
  }

  lemma HelloWorldSpansOutOfOrder()
    ensures var qs := ["WOR", "HEL"];
      var o := ScanText(HelloWorld, qs);
      IsComplete(o, qs) && !o.isSameOrder
  {
    var qs := ["WOR", "HEL"];
    assert Upper("hello") == "HELLO" && Upper("world") == "WORLD";
    assert !("WOR" <= "HELLO") by { assert "HELLO"[0] != "WOR"[0]; }
    assert qs[1..] == ["HEL"];
    assert FirstMatch(qs, "hello") == Some(1);
    assert FirstMatch(qs, "world") == Some(0);
    var s1 := HelloWorld[..1];
    var s2 := HelloWorld[..2];
    assert s1 == [Token("hello", true)];
    assert s1[..0] == [] && s2[..1] == s1 && HelloWorld[..2] == s2;
    assert FieldScan(qs, s1).isSameOrder == false;
    assert FieldScan(qs, s1).queryTokensMatched == {"HEL"};
    assert FieldScan(qs, s2).queryTokensMatched == {"HEL"};
    assert FieldScan(qs, HelloWorld).queryTokensMatched == {"HEL", "WOR"};
    SameOrderLatches(qs, HelloWorld, 1);
    assert |{"HEL", "WOR"}| == 2;
  }

  predicate LowerWord(s: string) {
    s != [] && forall i :: 0 <= i < |s| ==> 'a' <= s[i] <= 'z'
  }

  /** Two lower-case words joined by a space are two tokens around one
      separator span. */
  lemma TwoLowerWords(a: string, b: string)
    requires LowerWord(a) && LowerWord(b)
    ensures Tokenize(NewTokenizer(None, None), a + " " + b) == [Token(a, true), Token(" ", false), Token(b, true)]
  {
    var cfg := NewTokenizer(None, None);
    var t := a + " ";
    var st := ScanState([Token(a, true), Token(" ", false)], [], false);
    assert Scan(cfg, t) == st by {
      LowerWordRun(cfg, a);
      assert t[..|t| - 1] == a;
      assert IsSplit(cfg, ' ') by {
        assert DefaultSplitSymbols[0] == [' '];
      }
    }
    assert Scan(cfg, t + b) == ScanState(st.answer, b, false) by {
      LowerWordTail(cfg, t, b, st);
    }
    assert t + b == a + " " + b;
  }

  lemma LowerWordRun(cfg: Config, a: string)
    requires cfg == NewTokenizer(None, None) && LowerWord(a)
    ensures Scan(cfg, a) == ScanState([], a, false)
  {
    LettersDoNotSplit(cfg, a);
    LowerRun(cfg, a);
  }

  lemma LowerWordTail(cfg: Config, t: string, b: string, st: ScanState)
    requires cfg == NewTokenizer(None, None) && LowerWord(b)
    requires Scan(cfg, t) == st && st.currentToken == []
    ensures Scan(cfg, t + b) == ScanState(st.answer, b, false)
  {
    LettersDoNotSplit(cfg, b);
    LowerTail(cfg, t, b, st);
    assert st.currentToken + b == b;
  }

  /** "hello world" is the spans of `HelloWorld`. */
  lemma HelloWorldText()
    ensures Tokenize(NewTokenizer(None, None), "hello world") == HelloWorld
  {
    TwoLowerWords("hello", "world");
    assert "hello" + " " + "world" == "hello world";
  }

  /** A query of two lower-case words has their upper-cased forms as its
      query tokens. */
  lemma TwoWordQuery(a: string, b: string, query: string)
    requires LowerWord(a) && LowerWord(b) && query == a + " " + b
    ensures QueryTokens(NewTokenizer(None, None), query) == [Upper(a), Upper(b)]
  {
    TwoLowerWords(a, b);
    var s1 := [Token(a, true)];
    var s2 := s1 + [Token(" ", false)];
    var s3 := s2 + [Token(b, true)];
    assert s3 == [Token(a, true), Token(" ", false), Token(b, true)];
    assert UpperTokenTexts(s1) == [Upper(a)] by {
      assert s1[..0] == [];
    }
    assert UpperTokenTexts(s2) == [Upper(a)] by {
      assert s2[..1] == s1;
    }
    assert UpperTokenTexts(s3) == [Upper(a), Upper(b)] by {
      assert s3[..2] == s2;
    }
  }

  /** A digit is its own upper-case form, so it starts a token like an
      upper-case letter: "a1" is two tokens. */
  lemma DigitStartsNewToken()
    ensures Tokenize(NewTokenizer(None, None), "a1") == [Token("a", true), Token("1", true)]
  {
    var cfg := NewTokenizer(None, None);
    LettersDoNotSplit(cfg, "a1");
    assert !IsSplit(cfg, 'a') && !IsSplit(cfg, '1');
    assert "a"[..0] == [];
    assert Scan(cfg, "a") == ScanState([], "a", false);
    assert "a1"[..1] == "a";
    assert Scan(cfg, "a1") == ScanState([Token("a", true)], "1", true);
  }

  /** "helloWorld" splits at its lower-to-upper boundary into "hello" and
      "World", with case splitting asked off: the constructor ignores that. */
  lemma CamelCaseSplitsEvenWhenAskedNotTo()
    ensures Tokenize(NewTokenizer(None, Some(false)), "helloWorld") == [Token("hello", true), Token("World", true)]
    ensures !NoAdjacentTokens(Tokenize(NewTokenizer(None, Some(false)), "helloWorld"))
  {
    var cfg := NewTokenizer(None, Some(false));
    CamelScan(cfg);
    var r := Tokenize(cfg, "helloWorld");
    assert r[0].isToken && r[1].isToken;
  }

  lemma CamelScan(cfg: Config)
    requires cfg == NewTokenizer(None, Some(false))
    ensures Scan(cfg, "helloWorld") == ScanState([Token("hello", true)], "World", false)
  {
    var t := "helloWorld";
    CamelHead(cfg);
    assert t[..6] + "orld" == t;
    LettersDoNotSplit(cfg, "orld");
    LowerTail(cfg, t[..6], "orld", ScanState([Token("hello", true)], "W", true));
  }

  lemma CamelHead(cfg: Config)
    requires cfg == NewTokenizer(None, Some(false))
    ensures Scan(cfg, "helloWorld"[..6]) == ScanState([Token("hello", true)], "W", true)
  {
    var t := "helloWorld";
    CamelHello(cfg);
    assert t[..6][..5] == t[..5];
    LettersDoNotSplit(cfg, "W");
  }

  lemma CamelHello(cfg: Config)
    requires cfg == NewTokenizer(None, Some(false))
    ensures Scan(cfg, "helloWorld"[..5]) == ScanState([], "hello", false)
  {
    assert "helloWorld"[..5] == "hello";
    LettersDoNotSplit(cfg, "hello");
    LowerRun(cfg, "hello");
  }

  /** No ASCII letter or digit is a default separator. */
  lemma LettersDoNotSplit(cfg: Config, s: string)
    requires cfg.splitSymbols == DefaultSplitSymbols
    requires forall i :: 0 <= i < |s| ==> 'a' <= s[i] <= 'z' || 'A' <= s[i] <= 'Z' || '0' <= s[i] <= '9'
    ensures forall i :: 0 <= i < |s| ==> !IsSplit(cfg, s[i])
  {
    forall i | 0 <= i < |s| ensures !IsSplit(cfg, s[i]) {
      var c := s[i];
      forall k | 0 <= k < |DefaultSplitSymbols| ensures DefaultSplitSymbols[k] != [c] {
        assert DefaultSplitSymbols[k][0] != c;
      }
    }
  }

  /** A run of ordinary, non-separator characters from the start is one
      pending token. */
  lemma {:induction false} LowerRun(cfg: Config, s: string)
    requires forall i :: 0 <= i < |s| ==> !IsSplit(cfg, s[i]) && !IsCaseStart(s[i])
    ensures Scan(cfg, s) == ScanState([], s, false)
    decreases |s|
  {
    if |s| > 0 {
      var p := s[..|s| - 1];
      var x := s[|s| - 1];
      assert forall i :: 0 <= i < |p| ==> p[i] == s[i];
      LowerRun(cfg, p);
      assert !IsSplit(cfg, x) && !IsCaseStart(x);
      assert Scan(cfg, s) == Step(cfg, ScanState([], p, false), x);
      assert p + [x] == s;
    }
  }

  /** Ordinary characters after a prefix extend the pending token. */
  lemma {:induction false} LowerTail(cfg: Config, a: string, s: string, st: ScanState)
    requires Scan(cfg, a) == st
    requires forall i :: 0 <= i < |s| ==> !IsSplit(cfg, s[i]) && !IsCaseStart(s[i])
    ensures Scan(cfg, a + s) == ScanState(st.answer, st.currentToken + s, if |s| == 0 then st.prevTokenByCase else false)
    decreases |s|
  {
    if |s| == 0 {
      assert a + s == a;
    } else {
      var p := s[..|s| - 1];
      LowerTail(cfg, a, p, st);
      assert (a + s)[..|a + s| - 1] == a + p;
      assert st.currentToken + p + [s[|s| - 1]] == st.currentToken + s;
    }
  }
}

=== FILE: single_field_filter.dfy ===
/** The single-field engine: every indexed item has one text, an item is
    returned when its text matches every query token, and the results keep
    the order of the index. */
module SingleFieldFilter {
  import opened Common
  import opened Tokenizer
  import opened ItemsIndex
  import opened Matching

  datatype MatchedItem<T> = MatchedItem(item: T, highlight: seq<HighlightItem>, isSameOrder: bool)

  /** `doFilterItem`: an item is returned exactly when the query tokens are
      distinct and each wins some token of its text; the returned highlight
      spells that text. */
  function DoFilterItem<T>(entry: ItemData<T>, qs: seq<string>): (r: Option<MatchedItem<T>>)
    ensures r.Some? <==> Distinct(qs) && forall q :: q in qs ==> q in WinnerTokens(qs, entry.text)
    ensures r.Some? ==> r.value.item == entry.item && HighlightText(r.value.highlight) == Joined(entry.text)
  {
    var o := ScanText(entry.text, qs);
    CompleteIff(entry.text, qs);
    if IsComplete(o, qs) then Some(MatchedItem(entry.item, o.highlight, o.isSameOrder)) else None
  }

  /** A returned item's matched spans are the winning query-token prefixes of
      the tokens at their positions, and every won token has one; upper-cased,
      they are the winning query tokens in text order, so every query token is
      highlighted; and (with non-empty query tokens) it is in order exactly
      when its winners are the query tokens in order. */
  lemma MatchedItemMeaning<T>(entry: ItemData<T>, qs: seq<string>)
    requires DoFilterItem(entry, qs).Some?
    ensures MatchedSpansSound(qs, entry.text, DoFilterItem(entry, qs).value.highlight)
    ensures WonTokensHighlighted(qs, entry.text, DoFilterItem(entry, qs).value.highlight)
    ensures MatchedTexts(DoFilterItem(entry, qs).value.highlight) == WinnerTokens(qs, entry.text)
    ensures forall q :: q in qs ==> q in MatchedTexts(DoFilterItem(entry, qs).value.highlight)
    ensures NonEmptyTokens(qs) ==>
      (DoFilterItem(entry, qs).value.isSameOrder <==> WinnerTokens(qs, entry.text) == qs)
  {
    CompleteIff(entry.text, qs);
    if NonEmptyTokens(qs) {
      SameOrderIff(entry.text, qs);
    }
  }

  /** The matched entries, in index order. */
  function Results<T>(entries: seq<ItemData<T>>, qs: seq<string>): seq<MatchedItem<T>> {
    Somes(Map(e => DoFilterItem(e, qs), entries))
  }

  /** `doFilter`: reads the index (indexing it on first use), then keeps each
      matched item in index order. There is no ranking. */
  method DoFilter<T>(idx: Index<T>, tk: Config, textProvider: T -> string, query: string)
    returns (answer: seq<MatchedItem<T>>, idx': Index<T>)
    ensures idx' == Force(idx, TokenizeWith(tk), textProvider)
    ensures answer == Results(idx'.entries, QueryTokens(tk, query))
  {
    var qs := QueryTokens(tk, query);
    var indexed := IndexedItems(idx, TokenizeWith(tk), textProvider);
    var items := indexed.0;
    idx' := indexed.1;
    answer := [];
    var n := 0;
    while n < |items|
      invariant 0 <= n <= |items|
      invariant answer == Results(items[..n], qs)
    {
      var matched := DoFilterItem(items[n], qs);
      MapSnoc(e => DoFilterItem(e, qs), items, n);
      SomesAppend(Map(e => DoFilterItem(e, qs), items[..n]), matched);
      if matched.Some? {
        answer := answer + [matched.value];
      }
      n := n + 1;
    }
    assert items[..n] == items;
  }

  /** An item is among the results exactly when `doFilterItem` returns it
      for some entry. */
  lemma ResultsAreDoFilterItem<T>(entries: seq<ItemData<T>>, qs: seq<string>, m: MatchedItem<T>)
    ensures m in Results(entries, qs) <==> exists i :: 0 <= i < |entries| && DoFilterItem(entries[i], qs) == Some(m)
  {
    var outcomes := Map(e => DoFilterItem(e, qs), entries);
    SomesMembership(outcomes, m);
    if exists i :: 0 <= i < |entries| && DoFilterItem(entries[i], qs) == Some(m) {
      var i :| 0 <= i < |entries| && DoFilterItem(entries[i], qs) == Some(m);
      assert outcomes[i] == Some(m);
    }
  }

  /** On an index whose entries hold their items' tokens, every result's
      highlight spells the text the text provider gives for its item. */
  lemma ResultsSpellItemText<T>(entries: seq<ItemData<T>>, tk: Config, textProvider: T -> string, qs: seq<string>, m: MatchedItem<T>)
    requires WellIndexed(Indexed(entries), TokenizeWith(tk), textProvider)
    requires m in Results(entries, qs)
    ensures HighlightText(m.highlight) == textProvider(m.item)
  {
    ResultsAreDoFilterItem(entries, qs, m);
    var i :| 0 <= i < |entries| && DoFilterItem(entries[i], qs) == Some(m);
    assert Fresh(TokenizeWith(tk), textProvider, entries[i]);
  }

  /** A query without tokens (empty, or only separators) keeps every item,
      in order and in order of the query, with nothing highlighted. */
  lemma EmptyQueryKeepsEveryItem<T>(entries: seq<ItemData<T>>)
    ensures var ms := Results(entries, []);
      && |ms| == |entries|
      && forall i :: 0 <= i < |entries| ==>
        && ms[i].item == entries[i].item
        && ms[i].isSameOrder
        && HighlightText(ms[i].highlight) == Joined(entries[i].text)
        && forall p :: 0 <= p < |ms[i].highlight| ==> !ms[i].highlight[p].isMatched
  {
    var outcomes := Map(e => DoFilterItem(e, []), entries);
    forall i | 0 <= i < |entries|
      ensures outcomes[i].Some?
      ensures outcomes[i].value.isSameOrder
      ensures forall p :: 0 <= p < |outcomes[i].value.highlight| ==> !outcomes[i].value.highlight[p].isMatched
    {
      EmptyQueryMatchesEverything(entries[i].text);
    }
    SomesAllPresent(outcomes);
  }
}

=== FILE: tokenizer.dfy ===
/** The tokenizer: one left-to-right scan that cuts a string into token spans
    and one-character separator spans, starting a new token at every
    lower-to-upper case boundary. */
module Tokenizer {
  import opened Common

  /** One span of the input: a matchable token or an inert separator. */
  datatype Token = Token(text: string, isToken: bool)

  /** The tokenizer's configuration. A separator entry that is not exactly one
      character never equals a single character, so it never splits. */
  datatype Config = Config(splitSymbols: seq<string>, isSplitByCase: bool)

  const DefaultSplitSymbols: seq<string> := [" ", "\t", ".", "-", "_", ","]

  /** The constructor: a missing separator list means the default one, and
      `isSplitByCase || true` turns case splitting on whatever was passed. */
  function NewTokenizer(splitSymbols: Option<seq<string>>, isSplitByCase: Option<bool>): (cfg: Config)
    ensures cfg.isSplitByCase
    ensures cfg.splitSymbols == if splitSymbols.Some? then splitSymbols.value else DefaultSplitSymbols
  {
    Config(splitSymbols.GetOr(DefaultSplitSymbols), isSplitByCase.GetOr(false) || true)
  }

  /** The constructor as evidently meant: a missing flag defaults to case
      splitting on, and an explicit `false` turns it off. */
  function NewTokenizerIntended(splitSymbols: Option<seq<string>>, isSplitByCase: Option<bool>): (cfg: Config)
    ensures cfg.isSplitByCase <==> isSplitByCase != Some(false)
    ensures cfg.splitSymbols == if splitSymbols.Some? then splitSymbols.value else DefaultSplitSymbols
  {
    Config(splitSymbols.GetOr(DefaultSplitSymbols), isSplitByCase.GetOr(true))
  }

  predicate IsSplit(cfg: Config, c: char) {
    [c] in cfg.splitSymbols
  }

  predicate NoSplit(cfg: Config, s: string) {
    forall i :: 0 <= i < |s| ==> !IsSplit(cfg, s[i])
  }

  /** Every case-start character of `t` comes before every other character:
      a token is a run of case starts followed by a run of ordinary characters,
      so it never holds a lower-to-upper transition. */
  predicate CaseShaped(t: string) {
    forall i, j :: 0 <= i < j < |t| && IsCaseStart(t[j]) ==> IsCaseStart(t[i])
  }

  /** Two adjacent token spans meet at a lower-to-upper transition. */
  predicate CaseBoundary(a: string, b: string) {
    a != [] && b != [] && !IsCaseStart(a[|a| - 1]) && IsCaseStart(b[0])
  }

  /** The text of all spans, in order. */
  function Joined(spans: seq<Token>): string {
    if |spans| == 0 then [] else Joined(spans[..|spans| - 1]) + spans[|spans| - 1].text
  }

  lemma JoinedAppend(spans: seq<Token>, t: Token)
    ensures Joined(spans + [t]) == Joined(spans) + t.text
  {
    assert (spans + [t])[..|spans|] == spans;
  }

  // ---------------------------------------------------------------------
  // Shape predicates of a span sequence

  predicate AllNonEmpty(spans: seq<Token>) {
    forall i :: 0 <= i < |spans| ==> spans[i].text != []
  }

  /** Every separator span is exactly one separator character. */
  predicate SeparatorsAreSymbols(cfg: Config, spans: seq<Token>) {
    forall i :: 0 <= i < |spans| && !spans[i].isToken ==>
      |spans[i].text| == 1 && IsSplit(cfg, spans[i].text[0])
  }

  /** No token span holds a separator character. */
  predicate TokensHaveNoSplit(cfg: Config, spans: seq<Token>) {
    forall i :: 0 <= i < |spans| && spans[i].isToken ==> NoSplit(cfg, spans[i].text)
  }

  predicate TokensCaseShaped(spans: seq<Token>) {
    forall i :: 0 <= i < |spans| && spans[i].isToken ==> CaseShaped(spans[i].text)
  }

  predicate AdjacentTokensAtCaseBoundary(spans: seq<Token>) {
    forall i :: 0 <= i < |spans| - 1 && spans[i].isToken && spans[i + 1].isToken ==>
      CaseBoundary(spans[i].text, spans[i + 1].text)
  }

  // ---------------------------------------------------------------------
  // The scan

  /** The scan's variables: the spans emitted so far, the token being
      accumulated, and whether that token so far is a run of case starts. */
  datatype ScanState = ScanState(answer: seq<Token>, currentToken: string, prevTokenByCase: bool)

  /** Emits a token span unless the token is empty. */
  function SaveToken(answer: seq<Token>, token: string): seq<Token> {
    if token == [] then answer else answer + [Token(token, true)]
  }

  /** One iteration of the scan, for the character `letter`. */
  function Step(cfg: Config, st: ScanState, letter: char): ScanState {
    if IsSplit(cfg, letter) then
      ScanState(SaveToken(st.answer, st.currentToken) + [Token([letter], false)], [], false)
    else if cfg.isSplitByCase && IsCaseStart(letter) then
      if st.prevTokenByCase then
        ScanState(st.answer, st.currentToken + [letter], true)
      else
        ScanState(SaveToken(st.answer, st.currentToken), [letter], true)
    else
      ScanState(st.answer, st.currentToken + [letter], false)
  }

  /** The state after scanning all of `text`, left to right. */
  function Scan(cfg: Config, text: string): ScanState
    decreases |text|
  {
    if |text| == 0 then ScanState([], [], false)
    else Step(cfg, Scan(cfg, text[..|text| - 1]), text[|text| - 1])
  }

  /** Cuts `text` into spans. The spans give back the input, none is empty,
      separators are single separator characters, tokens hold none, and (with
      case splitting) a token never holds a lower-to-upper transition while
      two adjacent tokens always meet at one. */
  function Tokenize(cfg: Config, text: string): (r: seq<Token>)
    ensures Joined(r) == text
    ensures AllNonEmpty(r)
    ensures text == [] ==> r == []
    ensures SeparatorsAreSymbols(cfg, r)
    ensures TokensHaveNoSplit(cfg, r)
    ensures cfg.isSplitByCase ==> TokensCaseShaped(r) && AdjacentTokensAtCaseBoundary(r)
  {
    var st := Scan(cfg, text);
    FlushProperties(cfg, text);
    SaveToken(st.answer, st.currentToken)
  }

  /** The tokenizer's `tokenize` method as a value, the form in which the
      items index receives it. */
  function TokenizeWith(cfg: Config): string -> seq<Token> {
    text => Tokenize(cfg, text)
  }

  // ---------------------------------------------------------------------
  // Scan invariants

  /** The facts `Tokenize` promises, for the final flush of the scan. */
  lemma FlushProperties(cfg: Config, text: string)
    ensures var st := Scan(cfg, text);
      var r := SaveToken(st.answer, st.currentToken);
      && Joined(r) == text
      && AllNonEmpty(r)
      && SeparatorsAreSymbols(cfg, r)
      && TokensHaveNoSplit(cfg, r)
      && (cfg.isSplitByCase ==> TokensCaseShaped(r) && AdjacentTokensAtCaseBoundary(r))
  {
    var st := Scan(cfg, text);
    ScanRebuilds(cfg, text);
    if st.currentToken != [] {
      JoinedAppend(st.answer, Token(st.currentToken, true));
    }
    ScanShape(cfg, text);
    FlushShape(cfg, st.answer, st.currentToken);
    if cfg.isSplitByCase {
      ScanCase(cfg, text);
      SaveTokenCase(st.answer, st.currentToken);
    }
  }

  /** Emitting a token free of separators keeps the span shape facts. */
  lemma FlushShape(cfg: Config, answer: seq<Token>, cur: string)
    requires AllNonEmpty(answer) && SeparatorsAreSymbols(cfg, answer) && TokensHaveNoSplit(cfg, answer)
    requires NoSplit(cfg, cur)
    ensures var r := SaveToken(answer, cur);
      AllNonEmpty(r) && SeparatorsAreSymbols(cfg, r) && TokensHaveNoSplit(cfg, r)
  {
  }

  /** The emitted spans followed by the pending token are exactly the
      characters consumed. */
  lemma {:induction false} ScanRebuilds(cfg: Config, text: string)
    ensures Joined(Scan(cfg, text).answer) + Scan(cfg, text).currentToken == text
    decreases |text|
  {
    if |text| > 0 {
      var p := text[..|text| - 1];
      ScanRebuilds(cfg, p);
      StepRebuilds(cfg, Scan(cfg, p), p, text[|text| - 1]);
      assert p + [text[|text| - 1]] == text;
    }
  }

  lemma StepRebuilds(cfg: Config, st: ScanState, consumed: string, c: char)
    requires Joined(st.answer) + st.currentToken == consumed
    ensures Joined(Step(cfg, st, c).answer) + Step(cfg, st, c).currentToken == consumed + [c]
  {
    var saved := SaveToken(st.answer, st.currentToken);
    assert Joined(saved) == Joined(st.answer) + st.currentToken by {
      if st.currentToken != [] {
        JoinedAppend(st.answer, Token(st.currentToken, true));
      }
    }
    if IsSplit(cfg, c) {
      JoinedAppend(saved, Token([c], false));
    } else if cfg.isSplitByCase && IsCaseStart(c) && !st.prevTokenByCase {
      assert Step(cfg, st, c) == ScanState(saved, [c], true);
    }
  }

  /** The emitted spans are non-empty, separators are single separator
      characters, and no token (emitted or pending) holds a separator. */
  lemma {:induction false} ScanShape(cfg: Config, text: string)
    ensures AllNonEmpty(Scan(cfg, text).answer)
    ensures SeparatorsAreSymbols(cfg, Scan(cfg, text).answer)
    ensures TokensHaveNoSplit(cfg, Scan(cfg, text).answer)
    ensures NoSplit(cfg, Scan(cfg, text).currentToken)
    decreases |text|
  {
    if |text| > 0 {
      ScanShape(cfg, text[..|text| - 1]);
    }
  }

  predicate CaseInvariant(st: ScanState) {
    && TokensCaseShaped(st.answer)
    && AdjacentTokensAtCaseBoundary(st.answer)
    && CaseShaped(st.currentToken)
    && (st.prevTokenByCase <==> st.currentToken != [] && IsCaseStart(st.currentToken[|st.currentToken| - 1]))
    && (|st.answer| > 0 && st.answer[|st.answer| - 1].isToken ==>
          CaseBoundary(st.answer[|st.answer| - 1].text, st.currentToken))
  }

  lemma {:induction false} ScanCase(cfg: Config, text: string)
    requires cfg.isSplitByCase
    ensures CaseInvariant(Scan(cfg, text))
    decreases |text|
  {
    if |text| > 0 {
      ScanCase(cfg, text[..|text| - 1]);
      CaseStep(cfg, Scan(cfg, text[..|text| - 1]), text[|text| - 1]);
    }
  }

  lemma CaseStep(cfg: Config, st: ScanState, c: char)
    requires cfg.isSplitByCase
    requires CaseInvariant(st)
    ensures CaseInvariant(Step(cfg, st, c))
  {
    var cur := st.currentToken;
    if IsSplit(cfg, c) {
      SaveTokenCase(st.answer, cur);
    } else if IsCaseStart(c) {
      if st.prevTokenByCase {
        AppendCaseStart(cur, c);
      } else {
        SaveTokenCase(st.answer, cur);
      }
    } else {
      AppendOrdinary(cur, c);
    }
  }

  /** Emitting the pending token keeps the emitted spans case-shaped and
      their adjacent tokens at case boundaries. */
  lemma SaveTokenCase(answer: seq<Token>, cur: string)
    requires TokensCaseShaped(answer) && AdjacentTokensAtCaseBoundary(answer)
    requires CaseShaped(cur)
    requires |answer| > 0 && answer[|answer| - 1].isToken ==> CaseBoundary(answer[|answer| - 1].text, cur)
    ensures TokensCaseShaped(SaveToken(answer, cur))
    ensures AdjacentTokensAtCaseBoundary(SaveToken(answer, cur))
  {
  }

  lemma AppendCaseStart(cur: string, c: char)
    requires CaseShaped(cur) && cur != [] && IsCaseStart(cur[|cur| - 1])
    requires IsCaseStart(c)
    ensures CaseShaped(cur + [c])
  {
    var t := cur + [c];
    forall i, j | 0 <= i < j < |t| && IsCaseStart(t[j])
      ensures IsCaseStart(t[i])
    {
      if j == |cur| && i < |cur| - 1 {
        assert IsCaseStart(cur[i]);
      }
    }
  }

  lemma AppendOrdinary(cur: string, c: char)
    requires CaseShaped(cur)
    requires !IsCaseStart(c)
    ensures CaseShaped(cur + [c])
  {
    var t := cur + [c];
    forall i, j | 0 <= i < j < |t| && IsCaseStart(t[j])
      ensures IsCaseStart(t[i])
    {
      assert j < |cur|;
    }
  }

  // ---------------------------------------------------------------------
  // Without case splitting

  /** No two token spans are adjacent: every token is a maximal run of
      non-separator characters. */
  predicate NoAdjacentTokens(spans: seq<Token>) {
    forall i :: 0 <= i < |spans| - 1 ==> !spans[i].isToken || !spans[i + 1].isToken
  }

  /** With case splitting off, a token span ends only at a separator or at the
      end of the text. */
  lemma TokenizeWithoutCaseSplit(cfg: Config, text: string)
    requires !cfg.isSplitByCase
    ensures NoAdjacentTokens(Tokenize(cfg, text))
  {
    var st := Scan(cfg, text);
    NoCaseSplitScan(cfg, text);
    if st.currentToken != [] {
      var r := st.answer + [Token(st.currentToken, true)];
      assert forall i :: 0 <= i < |st.answer| ==> r[i] == st.answer[i];
    }
  }

  lemma {:induction false} NoCaseSplitScan(cfg: Config, text: string)
    requires !cfg.isSplitByCase
    ensures NoAdjacentTokens(Scan(cfg, text).answer)
    ensures |Scan(cfg, text).answer| > 0 ==> !Scan(cfg, text).answer[|Scan(cfg, text).answer| - 1].isToken
    decreases |text|
  {
    if |text| > 0 {
      var p := text[..|text| - 1];
      NoCaseSplitScan(cfg, p);
      var st := Scan(cfg, p);
      var c := text[|text| - 1];
      if IsSplit(cfg, c) {
        var saved := SaveToken(st.answer, st.currentToken);
        var r := saved + [Token([c], false)];
        assert NoAdjacentTokens(saved) by {
          if st.currentToken != [] {
            assert forall i :: 0 <= i < |st.answer| ==> saved[i] == st.answer[i];
          }
        }
        assert forall i :: 0 <= i < |saved| ==> r[i] == saved[i];
      }
    }
  }

  // ---------------------------------------------------------------------
  // Runs of case starts

  /** Every character is a case start: an upper-case letter or a caseless
      character such as a digit. */
  predicate AllCaseStarts(s: string) {
    forall i :: 0 <= i < |s| ==> IsCaseStart(s[i])
  }

  /** A run of case starts with no separator is never cut: "HELLO" is one
      token, with or without case splitting. */
  lemma CaseRunIsOneToken(cfg: Config, s: string)
    requires s != [] && NoSplit(cfg, s) && AllCaseStarts(s)
    ensures Tokenize(cfg, s) == [Token(s, true)]
  {
    CaseRunScan(cfg, s);
  }

  lemma {:induction false} CaseRunScan(cfg: Config, s: string)
    requires NoSplit(cfg, s) && AllCaseStarts(s)
    ensures Scan(cfg, s).answer == [] && Scan(cfg, s).currentToken == s
    ensures cfg.isSplitByCase && s != [] ==> Scan(cfg, s).prevTokenByCase
    decreases |s|
  {
    if |s| > 0 {
      var p := s[..|s| - 1];
      CaseRunScan(cfg, p);
      assert p + [s[|s| - 1]] == s;
    }
  }
}
